=== FILE: README.md ===
# spark-service-promotion export/import scripts, in Dafny

This project models the decision logic of the two Node.js scripts that
promote Spark services between Coherent Spark environments from a CI job:

- `script.old.js`, the full export/import script: argument validation,
  service-list sanitising, the import metadata, the submit call, the
  status-polling loop, the choice of files to download and the two
  end-to-end flows `exp` and `imp`;
- `script.js`, its trimmed successor: the missing-field guard of `exp`,
  the submit wrapper `tryExecuteApiService` and the status check that
  returns `outputs.files`.

Both scripts define their own `ScriptError` class. Both are modelled here.

The network, the file system and `JSON.parse` are parameters. An HTTP reply
is a value of `Http.Reply`/`Http.PostReply`. The answers to the status GETs
are a scripted sequence, one per call. `downloadFile` is a function from URL
to how its promise settles. `JSON.parse` is a partial function from strings
to values. The JavaScript the scripts rely on is modelled in `Js`:
truthiness, property reads that throw on `undefined`/`null`, `for…of`,
`String.prototype.trim` with the WhiteSpace and LineTerminator code points
of ECMAScript, and the lossy `causeAsString`/`sourceAsString` rendering.

Modules:

| module | file | what |
|---|---|---|
| `Outcomes` | outcomes.dfy | `Option`, `Result` |
| `Lists` | lists.dfy | `flatMap` and a `for…of` loop cut short by a throw, over any element type |
| `Js` | js.dfy | JavaScript values, property reads, iteration, `trim`, cause rendering |
| `ErrorCodes` | error_codes.dfy | the `type` codes, the `toJson` record, the `type (cause): message` summary |
| `Services` | services.dfy | `sanitizeServices` (the same in both scripts), `join`/`split` |
| `Http` | http.dfy | scripted HTTP replies |
| `Poller` | poller.dfy | the `checkStatus` loop both scripts share, parameterised by how a script reads an answer |
| `OldErrors`, `Errors` | old_errors.dfy, errors.dfy | `ScriptError` of the old and of the new script |
| `OldScript`, `Script` | old_script.dfy, script.dfy | the rest of each script |
| `Submits` | submits.dfy | the old and the new submit call side by side |

## Behaviour as written

The model follows the code in these places, where a reader of the scripts'
comments and names might expect something else:

- A bracketed service string that `JSON.parse` rejects, or parses to a
  non-array, gives `[]`. It does not give a one-element list of the raw
  string (script.old.js:174-184).
- `isEmpty` holds only for strings. `undefined`, `null`, numbers and objects
  pass the env, tenant and token checks of `validateArgs`. A submit response
  without `status_url` passes the `isEmpty` guard, and polling goes ahead
  with an `undefined` endpoint (script.old.js:28-32, 195-197).
- When all ten status answers are pending, `checkStatus` returns `[]` without
  an error. The old `exp` and `imp` then read `[].files.length` and
  `[].services.length`, which throws a TypeError (script.old.js:33, 73, 110).
- A transport failure is classified as `AXIOS_ERROR` by `handle`
  (script.old.js:208-210).
- A failed download GET is only logged. Nothing ends the write stream, so
  the promise `downloadFile` returns never settles and the export stalls
  there. The next file is not tried (script.old.js:122-144).
- The new `exp` guard tests truthiness only: `" "` passes it and the export
  body gets an empty service list (script.js:14-19).
- The new `checkStatus` and `tryExecuteApiService` ignore the HTTP status
  code (script.js:47, 66).
- The old script's message prefix is the four characters `ðŸ˜©` followed by a
  blank: the file stores a face emoji's UTF-8 bytes re-encoded, and the model
  keeps those characters as they are (script.old.js:201).
- A non-200 submit in the old script throws SERVICE_UNAVAILABLE inside the
  `try`. `handle` then wraps it, as the cause of a second SERVICE_UNAVAILABLE
  (script.old.js:87-90).

## Model

| member | source | states |
|---|---|---|
| Js.Get | script.old.js:102-103 | a property read throws a TypeError exactly on `undefined`/`null`; on a plain object it yields the own property, or `undefined` when there is none |
| Js.Iterate | script.old.js:37 | `for…of` succeeds exactly on arrays and on primitive or boxed strings, and walks an array's items in order |
| Js.TrimIdempotent | script.old.js:181 | trimming a trimmed string changes nothing |
| Js.Trim | script.old.js:181 | `trim` leaves no whitespace at either end; it keeps the middle of the string and drops only whitespace margins (`Js.TrimKeepsMiddle`), leaves nothing exactly of an all-whitespace string (`Js.TrimBlank`) and is idempotent (`Js.TrimIdempotent`) |
| Js.TrimKeepsMiddle | script.old.js:181 | the trimmed string is a contiguous slice of the input, and everything before and after that slice is whitespace |
| Js.Render | script.old.js:223-229 | a falsy cause renders as `<undefined>`, a string as itself, an Error as its message, any other object as `<object>`, anything else as `<unknown>`; the rendering is empty only for an Error with an empty message |
| Js.RenderHidesObjects | script.js:110-116 | two non-error objects render the same whatever they hold |
| ErrorCodes.CodeRoundTrip | script.old.js:241-246 | every kind is read back from its `type` code, so distinct kinds have distinct codes |
| ErrorCodes.SummaryNamesKind | script.js:122-126 | the first word of a `type (source)[: message]` summary is the kind's code |
| ErrorCodes.SummaryShowsMessageIff | script.js:122-126 | a summary ends with `: <message>` if and only if the message is not blank; otherwise it ends with `)` |
| Errors.New | script.js:96-101 | an omitted type is UNKNOWN_ERROR; the message and source are kept as given |
| Errors.Handle | script.js:103-108 | the thrown error is AXIOS_ERROR exactly for an Axios error; an Axios error's source is the string of its message; anything else is SERVICE_UNAVAILABLE with the original value as source; the message is the one passed |
| Errors.ToString | script.js:122-126 | the summary starts with the type code, ` (`, the `sourceAsString` rendering of the source and `)` |
| Errors.HasMessage | script.js:118-120 | holds exactly when the message is not blank (`this.message && this.message.trim().length > 0`) |
| Errors.ToJson | script.js:128-135 | the JSON record reads back to the same error, and its `details` is the `toString` summary |
| Errors.ToStringShowsMessageIff | script.js:118-126 | `toString` ends with `: <message>` exactly when `hasMessage` holds |
| Errors.ToStringNamesKind | script.js:122-123 | the kind can be read back from the first word of `toString` |
| OldErrors.New | script.old.js:199-205 | an omitted type is UNKNOWN_ERROR; the message gets the four-character prefix `ðŸ˜©` and a blank (a mis-encoded emoji in the script file); the cause is kept |
| OldErrors.NewHasMessage | script.old.js:231-233 | every constructed error has a message, even for an empty one, because of the prefix |
| OldErrors.Handle | script.old.js:207-212 | AXIOS_ERROR exactly for an Axios error; an Axios error's cause is the string of its message; otherwise SERVICE_UNAVAILABLE with the original value as cause; the message is the prefixed one passed |
| OldErrors.ToString | script.old.js:235-239 | the summary starts with `>>> ScriptError - `, then the type code, ` (`, the `causeAsString` rendering of the cause and `)` |
| OldErrors.HasMessage | script.old.js:231-233 | holds exactly when the message is not blank (`this.message && this.message.trim().length > 0`) |
| OldErrors.ToJson | script.old.js:241-248 | the JSON record reads back to the same error, and its `details` is the `toString` summary |
| OldErrors.ToStringEndsWithMessage | script.old.js:235-239 | the summary of every constructed error ends with `: <message>` |
| OldErrors.ToStringNamesKind | script.old.js:235-237 | the summary starts with `>>> ScriptError - ` and the next word is the kind's code |
| OldErrors.ToStringHidesObjectCauses | script.old.js:223-236 | two errors whose causes are different non-error objects print the same |
| Services.Normalise | script.old.js:181 | the `map` callback yields `''` or a non-empty trimmed string |
| Services.Kept | script.old.js:181 | `map` then `filter` keep at most one string per element |
| Services.KeptMembers | script.old.js:181 | an element contributes `x` exactly when it is a string whose trim is the non-empty `x` |
| Services.Sanitize | script.old.js:170-185 | a falsy input gives `[]`; an array, and a bracketed string that parses to an array, give the cleaning of its items; the function is total (it never throws); identical in script.js:78-93 |
| Services.Clean | script.old.js:181 | `map` then `filter` never give more strings than there were items |
| Services.SanitizeYieldsServiceRefs | script.old.js:181 | every returned element is non-empty and equal to its own trim |
| Services.SanitizeRejectsNonLists | script.old.js:174-184 | a bracketed string that does not parse to an array, and any truthy non-string non-array value, give `[]` |
| Services.SanitizeString | script.old.js:177-181 | an unbracketed string gives `[]` when blank and otherwise exactly its trim |
| Services.SanitizeIdempotent | script.old.js:170-185 | sanitising an already sanitised list gives it back unchanged |
| Services.CleanAppend | script.old.js:181 | cleaning a concatenation is the concatenation of the cleanings: relative order is kept |
| Services.DropsNonString | script.old.js:181 | a non-string element is dropped without disturbing its neighbours |
| Services.CleanMembers | script.old.js:181 | `x` is returned if and only if some string element trims to the non-empty `x` |
| Services.CleanYieldsServiceRefs | script.old.js:181 | whatever the elements, everything that survives is non-empty and trimmed |
| Services.CleanKeepsServiceRefs | script.old.js:181 | a list of trimmed non-empty strings comes back unchanged |
| Services.Join | script.old.js:148 | joining `[]` gives `''`; a list whose first element is non-empty joins to a non-empty string |
| Services.SplitJoin | script.old.js:148 | splitting the comma-join of comma-free strings at the commas gives the list back |
| OldScript.IsEmpty | script.old.js:195-197 | `isEmpty` holds exactly for a primitive or boxed string that is all whitespace; `undefined`, `null`, numbers and objects are never empty |
| OldScript.ValidateArgs | script.old.js:187-193 | validation fails exactly when some argument fails its check; the error is ARGUMENT_MISSING for the first failing one in the order env, tenant, token, services, with its value as cause |
| OldScript.NonStringArgsPass | script.old.js:187-197 | with non-string env, tenant and token, validation passes exactly when the sanitised services are non-empty |
| OldScript.CreateMetadata | script.old.js:147-162 | one `services_modify` entry; the source is the comma-join of the sanitised source; a falsy target falls back to the source, a truthy one is sanitised on its own; `major`, `update` and the CI handler are constant |
| OldScript.MetadataSourceRoundTrip | script.old.js:148 | with comma-free references, the source field splits back into the sanitised source list |
| OldScript.ExecuteApiService | script.old.js:84-92 | the body is returned exactly on status 200; otherwise the error message names the endpoint; a non-200 status is SERVICE_UNAVAILABLE whose cause is the inner SERVICE_UNAVAILABLE `failed to execute API` error; a failed request is exactly `handle(error, 'failed to POST …')`, AXIOS_ERROR exactly for an Axios error |
| OldScript.StatusUrlOf | script.old.js:28 | `response && response['status_url']`: the own property of an object response, the response itself when it is falsy |
| OldScript.StatusStep | script.old.js:100-104 | a thrown GET or a nullish body ends the loop with that exception; for any other body the answer is terminal exactly when `status` is `completed` or `closed`, and then yields `outputs`, and otherwise it is pending and retried |
| OldScript.CheckStatus | script.old.js:94-114 | between 1 and 10 GETs, every answer before the last pending; an exception is the last answer's, re-thrown through `handle` |
| OldScript.CheckStatusFirstTerminal | script.old.js:98-108 | after `n` pending answers a terminal one returns its `outputs`, after `n + 1` GETs and `1000·n(n+1)/2` ms of sleep |
| OldScript.CheckStatusStopsOnException | script.old.js:99-113 | a GET that throws is the last one, and its error escapes through `handle` (AXIOS_ERROR for an Axios error) |
| OldScript.CheckStatusExhausted | script.old.js:98-110 | ten pending answers give `[]` without an error, after 10 GETs and 55 000 ms |
| OldScript.SelectDownloads | script.old.js:37-42 | the loop hands on no more URLs than there are entries, and can only stop early with the TypeError of a property read |
| OldScript.Visit | script.old.js:37-39 | one loop turn throws exactly on a `null`/`undefined` entry, and hands on at most one URL |
| OldScript.SelectSkipsEmpty | script.old.js:37-41 | no blank string is ever handed to `downloadFile` |
| OldScript.SelectFaultIff | script.old.js:37-38 | the loop runs to the end exactly when no entry is `null` or `undefined` |
| OldScript.SelectAppend | script.old.js:37-42 | the files are visited in list order: the URLs of `a + b` are those of `a` followed by those of `b` |
| OldScript.SelectMembers | script.old.js:37-41 | without nullish entries, a value is downloaded exactly when some entry's `file` is that value and it is not blank |
| OldScript.StopsAtNullishEntry | script.old.js:37-38 | the first nullish entry ends the loop with a TypeError; nothing after it is downloaded |
| OldScript.DownloadAll | script.old.js:41 | downloads are awaited in order; the loop finishes exactly when every URL was saved, otherwise it ends at the first one that was not |
| OldScript.ExportFiles | script.old.js:33-37 | an empty `files` list throws UNPROCESSABLE, a non-empty one is iterated, and `[]` as outputs throws a TypeError |
| OldScript.AfterOutputs | script.old.js:33-42 | a throw from `outputs.files` ends the export with no download; otherwise the URLs tried are, in order, a prefix of those the loop selects, none of them blank, and the export finishes exactly when the loop runs through and every selected URL is saved |
| OldScript.Export | script.old.js:18-47 | a failed validation posts nothing, makes no GET, downloads nothing and ends with the validation error; a successful one posts exactly the sanitised, non-empty services; at most 10 GETs; no download before a GET; no blank URL is downloaded; after the POST, a failed submit ends the export with its error, a missing `status_url` with UNPROCESSABLE, both with no GET and no download; otherwise the GETs and waits are those of `checkStatus`, whose exception ends the export with nothing downloaded, and whose outputs lead to exactly the downloads and ending of the selection loop (`OldScript.AfterOutputs`) |
| OldScript.TwoFilesDownloaded | script.old.js:37-42 | two listed, savable files are both downloaded, in list order |
| OldScript.ExportDownloadsInOrder | script.old.js:27-42 | a first status answer listing two files leads to one GET and both downloads, in order |
| OldScript.ExportExhaustedThrows | script.old.js:32-34 | ten pending answers end the export with a TypeError after 10 GETs and 55 000 ms, with nothing downloaded |
| OldScript.MissingStatusUrlIsPolled | script.old.js:28-32 | a response without `status_url` still leads to status polling |
| OldScript.ExitCode | script.old.js:77-80 | the exit code is 0 exactly when `imp` did not throw, and 1 when it threw |
| OldScript.ImportedCount | script.old.js:73-75 | an empty `services` list throws UNPROCESSABLE, a non-empty one yields its length, and `[]` as outputs throws a TypeError |
| OldScript.Import | script.old.js:57-82 | a failed validation uploads nothing, makes no GET and ends with the validation error; otherwise the uploaded metadata is that of `createFormData(source, target)`, with one entry naming a non-empty source; at most 10 GETs; exit code 0 needs passed validation, an upload and at least one GET; after the upload, a failed submit ends the import with its error, a missing `status_url` with UNPROCESSABLE, both with no GET; otherwise the GETs and waits are those of `checkStatus`, and the import ends with its exception or with the count `ImportedCount` reads from its outputs |
| OldScript.ImportReportsCount | script.old.js:67-77 | a first status answer listing one service reports a count of 1 and exit code 0 after one GET |
| Poller.PollFrom | script.old.js:98-110 | from any point the loop makes at most `MAX_RETRIES` GETs, all answers before the last pending, and an escaping exception is the last answer's |
| Poller.Poll | script.old.js:98-110 | at least one and at most 10 GETs, all but the last answered pending |
| Poller.BackoffClosedForm | script.old.js:105-108 | the waits `1·1000 + … + k·1000` sum to `1000·k(k+1)/2` ms |
| Poller.PollFromStop | script.old.js:98-110 | entered at any retry before the first non-pending answer, with the waits so far, the loop ends at that answer after its GET, or returns `[]` after the whole budget; the waits are the backoff sum up to there |
| Poller.PollClosedForm | script.old.js:98-110 | with `k` pending answers first: within the budget the loop makes `k + 1` GETs and ends as that answer says, after `1000·k(k+1)/2` ms; otherwise 10 GETs, `[]`, 55 000 ms |
| Poller.Check | script.old.js:94-114 | between 1 and 10 GETs, every answer before the last read as pending; an exception is the last answer's, re-thrown through the given `handle`; the same loop as script.js:53-76 |
| Poller.PollIgnoresLaterAnswers | script.old.js:102-104 | answers after the last GET the loop made have no influence on it |
| Script.MissingFieldError | script.js:14-15 | the guard's error is BAD_REQUEST and carries a message |
| Script.Exp | script.js:12-35 | `exp` refuses exactly when one of token, env, services, tenant is falsy, with the JSON of a BAD_REQUEST error whose origin lists all four fields; otherwise the body holds the sanitised services |
| Script.RefusalDetails | script.js:31-34 | whichever of the four fields is falsy, the refusal's `details` reads `BAD_REQUEST (tenant,token,env,services): required field is missing` |
| Script.BlankServicesPassGuard | script.js:14-19 | every non-empty all-whitespace service string passes the guard, and the body gets no services |
| Script.TryExecuteApiService | script.js:37-51 | yields the `status_url` of an object body (or `undefined` when it has none); a failed request is re-thrown as `handle(error, …)`, and a nullish body as `handle` of the TypeError its property read throws |
| Script.SubmitIgnoresHttpStatus | script.js:40-47 | the same body gives the same outcome under any two HTTP statuses, and a body holding `status_url` yields exactly that value |
| Script.SubmitFailureKeepsCause | script.js:48-49 | a non-Axios failed submit is SERVICE_UNAVAILABLE whose JSON `origin` is the original failure |
| Script.StatusStep | script.js:66-68 | for every non-nullish body, an object or not, pending exactly when its `status` is neither `completed` nor `closed`; a nullish body or a thrown GET ends the loop with that exception; a terminal object answer yields `outputs.files`, or a TypeError when `outputs` is missing |
| Script.CheckStatus | script.js:53-76 | between 1 and 10 GETs, every answer before the last pending; an exception is the last answer's, re-thrown through `handle` |
| Script.CheckStatusReturnsFiles | script.js:58-70 | after `n` pending answers, any terminal object answer with non-nullish `outputs` returns `outputs.files`, after `n + 1` GETs and `1000·n(n+1)/2` ms |
| Script.TerminalWithoutOutputsFails | script.js:66-67 | any terminal object answer whose `outputs` is absent, `null` or `undefined` ends the check after that GET with `handle` of the TypeError: SERVICE_UNAVAILABLE |
| Script.CheckStatusExhausted | script.js:57-72 | ten pending answers give `[]` without an error, after 10 GETs and 55 000 ms |
| Script.TransportFailureStopsAtOnce | script.js:59-74 | a transport failure on the first GET is AXIOS_ERROR, with no second GET |
| Submits.SubmitsCompared | script.old.js:84-92 | for every reply, against the new `tryExecuteApiService` (script.js:37-51): a 200 answer with a truthy body gives both scripts the same status URL; any other status fails the old submit, and the new one only for a nullish body; a failed POST fails both with the same kind and the same underlying value |

## Left out

- HTTP, file streams, `FormData` and its file part, `fs.statSync`: they are I/O. Replies, download outcomes and the uploaded metadata stand in for them.
- `setTimeout`: no time passes; the requested waits are summed in `waitedMs`.
- `console.log`, `process.exit` and `ScriptError.friendlyMessage`: output only. The exit code of `imp` is kept as `ExitCode`.
- The endpoint URLs built from env and tenant: string templating, passed in as `endpoint`.
- The internals of `JSON.parse`: a parameter of the model.
- Numbers are integers only; NaN, fractions and the rounding of the file size in the download log are not modelled.
- String lengths count code points, not UTF-16 code units. Only `length` and `message` are modelled as properties on non-plain objects, and a plain object never has a callable `map`.
- The text of a TypeError's message is a constant.
- Services.Sanitize: the source's guarantee that it never throws is stated by the function being total, not by an ensures clause.
- Poller.Poll: the answers are a finite scripted sequence of at least `MAX_RETRIES` entries, so the model cannot express a GET that never returns.
- OldScript.DownloadAll: `downloadFile` is a parameter; the log-only branch of a failed GET is modelled only as its effect, a promise that never settles.
- scripts/impex.js is not part of this model: it wraps an SDK whose code is not available.
- test.js and scripts/test.js are not part of this model: they make live calls and assert nothing.

=== FILE: error_codes.dfy ===
/**
 * The error kinds both scripts put in a ScriptError's `type` field, and the
 * structured record `toJson` produces.
 */
module ErrorCodes {
  import opened Outcomes
  import opened Js

  datatype ErrorKind =
    | BadRequest
    | ArgumentMissing
    | Unprocessable
    | AxiosError
    | ServiceUnavailable
    | UnknownError

  /** The `type` string a kind is written as; one word, no blanks or brackets. */
  function Code(k: ErrorKind): (c: string)
    ensures c != []
    ensures forall i :: 0 <= i < |c| ==> c[i] != ' ' && c[i] != '('
  {
    match k
    case BadRequest => "BAD_REQUEST"
    case ArgumentMissing => "ARGUMENT_MISSING"
    case Unprocessable => "UNPROCESSABLE"
    case AxiosError => "AXIOS_ERROR"
    case ServiceUnavailable => "SERVICE_UNAVAILABLE"
    case UnknownError => "UNKNOWN_ERROR"
  }

  /** Reads a `type` string back; `None` for a string no kind is written as. */
  function KindOf(code: string): (k: Option<ErrorKind>)
    ensures k.Some? ==> Code(k.value) == code
  {
    if code == "BAD_REQUEST" then Some(BadRequest)
    else if code == "ARGUMENT_MISSING" then Some(ArgumentMissing)
    else if code == "UNPROCESSABLE" then Some(Unprocessable)
    else if code == "AXIOS_ERROR" then Some(AxiosError)
    else if code == "SERVICE_UNAVAILABLE" then Some(ServiceUnavailable)
    else if code == "UNKNOWN_ERROR" then Some(UnknownError)
    else None
  }

  /** Every kind is read back from its own code, so `Code` is injective. */
  lemma CodeRoundTrip(k: ErrorKind)
    ensures KindOf(Code(k)) == Some(k)
  {
  }

  /** The record `toJson` returns: `{code, message, origin, details}`. */
  datatype ErrorJson = ErrorJson(code: string, message: string, origin: JsValue, details: string)

  /** The leading run of characters of `s` up to (excluding) the first blank. */
  function FirstWord(s: string): (w: string)
    ensures |w| <= |s| && w == s[..|w|]
    ensures forall i :: 0 <= i < |w| ==> w[i] != ' '
    ensures |w| < |s| ==> s[|w|] == ' '
  {
    if s == [] || s[0] == ' ' then [] else [s[0]] + FirstWord(s[1..])
  }

  /** A string that starts with a code and then a blank has the code as its first word. */
  lemma FirstWordOfCode(k: ErrorKind, s: string)
    requires |Code(k)| < |s| && s[|Code(k)|] == ' '
    requires forall i :: 0 <= i < |Code(k)| ==> s[i] == Code(k)[i]
    ensures FirstWord(s) == Code(k)
  {
    FirstWordOfPrefix(Code(k), s);
  }

  /** A blank-free word followed by a blank is the first word. */
  lemma {:induction false} FirstWordOfPrefix(w: string, s: string)
    requires |w| < |s| && s[|w|] == ' '
    requires forall i :: 0 <= i < |w| ==> s[i] == w[i] && w[i] != ' '
    ensures FirstWord(s) == w
    decreases |w|
  {
    if w != [] {
      FirstWordOfPrefix(w[1..], s[1..]);
      assert w == [w[0]] + w[1..];
    }
  }

  predicate EndsWith(s: string, suffix: string) {
    |suffix| <= |s| && s[|s| - |suffix|..] == suffix
  }

  /** Putting something in front of a string keeps its ending. */
  lemma EndsWithAfter(lead: string, s: string, suffix: string)
    requires EndsWith(s, suffix)
    ensures EndsWith(lead + s, suffix)
  {
    assert (lead + s)[|lead + s| - |suffix|..] == s[|s| - |suffix|..];
  }

  /** `hasMessage` of both scripts: the message is not blank. */
  predicate ShowsMessage(message: string) {
    Trim(message) != []
  }

  /**
   * The summary both scripts print after their own lead: the code, the
   * rendered underlying value in brackets, and `: <message>` when the
   * message is not blank.
   */
  function Summary(k: ErrorKind, rendered: string, message: string): string {
    Head(k, rendered) + Tail(message)
  }

  /** `<code> (<rendered>)`. */
  function Head(k: ErrorKind, rendered: string): string {
    Code(k) + (" (" + rendered + ")")
  }

  /** `: <message>`, or nothing for a blank message. */
  function Tail(message: string): string {
    if ShowsMessage(message) then ": " + message else ""
  }

  /** A summary opens with the code and then the rendered value in brackets. */
  lemma SummaryStartsWithHead(k: ErrorKind, rendered: string, message: string)
    ensures var s, short := Summary(k, rendered, message), Code(k) + " (";
      |short| <= |s| && s[..|short|] == short
    ensures var s, head := Summary(k, rendered, message), Code(k) + " (" + rendered + ")";
      |head| <= |s| && s[..|head|] == head
  {
    Opens(Code(k), rendered, Tail(message));
  }

  /** The same behind a lead, such as the class name the old script prints first. */
  lemma LeadSummaryStartsWithHead(lead: string, k: ErrorKind, rendered: string, message: string)
    ensures var s, short := lead + Summary(k, rendered, message), lead + Code(k) + " (";
      |short| <= |s| && s[..|short|] == short
    ensures var s, head := lead + Summary(k, rendered, message), lead + Code(k) + " (" + rendered + ")";
      |head| <= |s| && s[..|head|] == head
  {
    OpensWith(lead, Code(k), rendered, Tail(message));
  }

  /** `c + " (" + rendered + ")" + tail` starts with its first parts. */
  lemma Opens(c: string, rendered: string, tail: string)
    ensures var s, short := (c + (" (" + rendered + ")")) + tail, c + " (";
      |short| <= |s| && s[..|short|] == short
    ensures var s, head := (c + (" (" + rendered + ")")) + tail, c + " (" + rendered + ")";
      |head| <= |s| && s[..|head|] == head
  {
    var short := c + " (";
    var head := short + rendered + ")";
    assert (c + (" (" + rendered + ")")) + tail == head + tail;
    assert head == short + (rendered + ")");
  }

  /** `lead + c + " (" + rendered + ")" + tail` starts with its first parts. */
  lemma OpensWith(lead: string, c: string, rendered: string, tail: string)
    ensures var s, short := lead + ((c + (" (" + rendered + ")")) + tail), lead + c + " (";
      |short| <= |s| && s[..|short|] == short
    ensures var s, head := lead + ((c + (" (" + rendered + ")")) + tail), lead + c + " (" + rendered + ")";
      |head| <= |s| && s[..|head|] == head
  {
    var short := lead + c + " (";
    var head := short + rendered + ")";
    var s := lead + ((c + (" (" + rendered + ")")) + tail);
    assert s == head + tail;
    assert head == short + (rendered + ")");
  }

  /** The kind can be read back from a summary: it is the first word. */
  lemma SummaryNamesKind(k: ErrorKind, rendered: string, message: string)
    ensures KindOf(FirstWord(Summary(k, rendered, message))) == Some(k)
  {
    var c, h, s := Code(k), Head(k, rendered), Summary(k, rendered, message);
    assert s[|c|] == h[|c|] == ' ';
    FirstWordOfCode(k, s);
    CodeRoundTrip(k);
  }

  /**
   * A summary ends with `: <message>` exactly when the message is not
   * blank; otherwise it ends with the closing bracket.
   */
  lemma SummaryShowsMessageIff(k: ErrorKind, rendered: string, message: string)
    ensures ShowsMessage(message) <==> EndsWith(Summary(k, rendered, message), ": " + message)
    ensures !ShowsMessage(message) ==> Summary(k, rendered, message)[|Summary(k, rendered, message)| - 1] == ')'
  {
    var h, suffix, s := Head(k, rendered), ": " + message, Summary(k, rendered, message);
    if ShowsMessage(message) {
      SplitAt(h, suffix);
    } else {
      assert s == h;
      assert Blank(message);
      assert !IsWhitespace(s[|s| - 1]);
      assert IsWhitespace(suffix[|suffix| - 1]);
    }
  }
}

=== FILE: errors.dfy ===
/**
 * `ScriptError` of the new script: the message is kept as given, the
 * underlying value is called the `source`, and the summary is `type (source)`
 * followed by the message only when there is one.
 */
module Errors {
  import opened Outcomes
  import opened Js
  import opened ErrorCodes

  datatype ScriptError = ScriptError(kind: ErrorKind, message: string, source: JsValue)

  /** `hasMessage`: the message is not blank. */
  predicate HasMessage(e: ScriptError): (has: bool)
    ensures has <==> !Blank(e.message)
  {
    TrimBlank(e.message);
    ShowsMessage(e.message)
  }

  /** `new ScriptError(message, type, source)`; an omitted `type` is `None`. */
  function New(message: string, kind: Option<ErrorKind>, source: JsValue): (e: ScriptError)
    ensures kind.None? ==> e.kind == UnknownError
    ensures kind.Some? ==> e.kind == kind.value
    ensures e.message == message && e.source == source
  {
    ScriptError(if kind.Some? then kind.value else UnknownError, message, source)
  }

  /** The error as a thrown JavaScript value (an `Error` instance). */
  function AsValue(e: ScriptError): (v: JsValue)
    ensures v.Error? && Render(v) == e.message
  {
    Error(e.message, Script(Code(e.kind), e.source))
  }

  /**
   * `ScriptError.handle(error, message)`. It never returns normally; its
   * value here is the ScriptError it throws.
   */
  function Handle(error: JsValue, message: string): (thrown: ScriptError)
    ensures thrown.kind == AxiosError <==> error.Error? && error.origin.Axios?
    ensures thrown.kind != AxiosError ==> thrown.kind == ServiceUnavailable && thrown.source == error
    ensures thrown.message == message
    ensures error.Error? && error.origin.Axios? ==> thrown.source == Str(error.message)
    ensures error.Error? && error.message != [] ==> Render(thrown.source) == error.message
  {
    if error.Error? && error.origin.Axios? then New(message, Some(AxiosError), Str(error.message))
    else New(message, Some(ServiceUnavailable), error)
  }

  /** `toString()`: the type code and the bracketed source come first. */
  function ToString(e: ScriptError): (s: string)
    ensures var short := Code(e.kind) + " (";
      |short| <= |s| && s[..|short|] == short
    ensures var head := Code(e.kind) + " (" + Render(e.source) + ")";
      |head| <= |s| && s[..|head|] == head
  {
    SummaryStartsWithHead(e.kind, Render(e.source), e.message);
    Summary(e.kind, Render(e.source), e.message)
  }

  /** `toJson()`: nothing of the error is lost, it can be read back whole. */
  function ToJson(e: ScriptError): (j: ErrorJson)
    ensures FromJson(j) == Some(e)
    ensures j.details == ToString(e)
  {
    CodeRoundTrip(e.kind);
    ErrorJson(Code(e.kind), e.message, e.source, ToString(e))
  }

  /** Reads a `toJson` record back into an error; `None` for an unknown code. */
  function FromJson(j: ErrorJson): Option<ScriptError> {
    match KindOf(j.code)
    case Some(k) => Some(ScriptError(k, j.message, j.origin))
    case None => None
  }

  /**
   * The summary ends with `: <message>` exactly when the message is not
   * blank; otherwise it ends with the closing bracket of the source.
   */
  lemma ToStringShowsMessageIff(e: ScriptError)
    ensures HasMessage(e) <==> EndsWith(ToString(e), ": " + e.message)
    ensures !HasMessage(e) ==> ToString(e)[|ToString(e)| - 1] == ')'
  {
    SummaryShowsMessageIff(e.kind, Render(e.source), e.message);
  }

  /** The kind can be read back from the summary: it is its first word. */
  lemma ToStringNamesKind(e: ScriptError)
    ensures KindOf(FirstWord(ToString(e))) == Some(e.kind)
  {
    SummaryNamesKind(e.kind, Render(e.source), e.message);
  }
}

=== FILE: http.dfy ===
/** What the network hands back, as the scripts see it through axios. */
module Http {
  import opened Js

  /** The outcome of one `axios.get`: the response body, or what it threw. */
  datatype Reply = Answered(data: JsValue) | Threw(error: JsValue)

  /** The outcome of one `axios.post`: status and body, or what it threw. */
  datatype PostReply = Posted(status: int, data: JsValue) | PostFailed(error: JsValue)
}

=== FILE: js.dfy ===
/**
 * The slice of JavaScript semantics both scripts rely on: a value
 * universe, truthiness, property reads that throw on `undefined`/`null`,
 * `for…of` iteration, `String.prototype.trim`, and the lossy rendering of
 * an error's cause.
 */
module Js {
  import opened Outcomes

  /** Where an `Error` object came from, as far as `instanceof` can tell. */
  datatype ErrorOrigin =
    | Plain                                    // any other Error (TypeError, …)
    | Axios                                    // an instance of axios.AxiosError
    | Script(code: string, cause: JsValue)     // a ScriptError thrown by the scripts

  /**
   * A JavaScript value. Numbers are integers only (NaN and fractions play no
   * part here); `StrObject` is a boxed `new String(…)`; `Obj` is a plain
   * object with its own enumerable properties.
   */
  datatype JsValue =
    | Undefined
    | Null
    | Bool(b: bool)
    | Num(n: int)
    | Str(s: string)
    | StrObject(boxed: string)
    | Arr(items: seq<JsValue>)
    | Obj(fields: map<string, JsValue>)
    | Error(message: string, origin: ErrorOrigin)

  /** What V8 throws when a property of `undefined` or `null` is read. */
  const TypeErrorValue: JsValue := Error("TypeError", Plain)

  /** ToBoolean: the six falsy values that the model can express. */
  predicate Truthy(v: JsValue) {
    match v
    case Undefined => false
    case Null => false
    case Bool(b) => b
    case Num(n) => n != 0
    case Str(s) => s != []
    case _ => true
  }

  predicate Nullish(v: JsValue) {
    v.Undefined? || v.Null?
  }

  /** `typeof v === 'object'` (with `null` excluded: it is falsy anyway). */
  predicate IsObject(v: JsValue) {
    v.StrObject? || v.Arr? || v.Obj? || v.Error?
  }

  /**
   * `v[key]` for the keys the scripts read. Own properties of plain
   * objects, `length` of arrays and strings, `message` of errors; every
   * other read on a non-nullish value yields `undefined`.
   */
  function Get(v: JsValue, key: string): (r: Result<JsValue, JsValue>)
    ensures r.Err? <==> Nullish(v)
    ensures r.Err? ==> r.error == TypeErrorValue
    ensures v.Obj? ==> r == Ok(if key in v.fields then v.fields[key] else Undefined)
  {
    match v
    case Undefined => Err(TypeErrorValue)
    case Null => Err(TypeErrorValue)
    case Obj(fields) => Ok(if key in fields then fields[key] else Undefined)
    case Arr(items) => Ok(if key == "length" then Num(|items|) else Undefined)
    case Str(s) => Ok(if key == "length" then Num(|s|) else Undefined)
    case StrObject(s) => Ok(if key == "length" then Num(|s|) else Undefined)
    case Error(m, _) => Ok(if key == "message" then Str(m) else Undefined)
    case _ => Ok(Undefined)
  }

  /** The one-character strings a `for…of` over a string visits. */
  function Chars(s: string): (r: seq<JsValue>)
    ensures |r| == |s|
    ensures forall i :: 0 <= i < |s| ==> r[i] == Str([s[i]])
  {
    seq(|s|, i requires 0 <= i < |s| => Str([s[i]]))
  }

  /** The elements `for (const x of v)` visits, or the TypeError it throws. */
  function Iterate(v: JsValue): (r: Result<seq<JsValue>, JsValue>)
    ensures r.Ok? <==> v.Arr? || v.Str? || v.StrObject?
    ensures v.Arr? ==> r == Ok(v.items)
  {
    match v
    case Arr(items) => Ok(items)
    case Str(s) => Ok(Chars(s))
    case StrObject(s) => Ok(Chars(s))
    case _ => Err(TypeErrorValue)
  }

  /** WhiteSpace and LineTerminator code points, which `trim` removes. */
  predicate IsWhitespace(c: char) {
    || c == '\t' || c == '\n' || c == '\U{000B}' || c == '\U{000C}' || c == '\r'
    || c == ' ' || c == '\U{00A0}' || c == '\U{1680}'
    || ('\U{2000}' <= c <= '\U{200A}')
    || c == '\U{2028}' || c == '\U{2029}' || c == '\U{202F}' || c == '\U{205F}'
    || c == '\U{3000}' || c == '\U{FEFF}'
  }

  predicate Blank(s: string) {
    forall i :: 0 <= i < |s| ==> IsWhitespace(s[i])
  }

  /** A string that `trim` leaves alone: empty, or without blank ends. */
  predicate Trimmed(s: string) {
    s == [] || (!IsWhitespace(s[0]) && !IsWhitespace(s[|s| - 1]))
  }

  /** The index of the first non-whitespace character at or after `i`. */
  function SkipBlanks(s: string, i: nat): (k: nat)
    requires i <= |s|
    ensures i <= k <= |s|
    ensures forall j :: i <= j < k ==> IsWhitespace(s[j])
    ensures k < |s| ==> !IsWhitespace(s[k])
    decreases |s| - i
  {
    if i == |s| || !IsWhitespace(s[i]) then i else SkipBlanks(s, i + 1)
  }

  /** The end of `s[lo..hi]` once its trailing whitespace is dropped. */
  function SkipBlanksBack(s: string, lo: nat, hi: nat): (k: nat)
    requires lo <= hi <= |s|
    ensures lo <= k <= hi
    ensures forall j :: k <= j < hi ==> IsWhitespace(s[j])
    ensures k > lo ==> !IsWhitespace(s[k - 1])
    decreases hi - lo
  {
    if hi == lo || !IsWhitespace(s[hi - 1]) then hi else SkipBlanksBack(s, lo, hi - 1)
  }

  /** `s.trim()`: the middle of `s` between two whitespace-only margins. */
  function Trim(s: string): (r: string)
    ensures Trimmed(r)
  {
    s[TrimLeft(s)..TrimRight(s)]
  }

  /**
   * `trim` keeps the middle of `s` as it is and drops only the whitespace
   * margins on either side of it.
   */
  lemma TrimKeepsMiddle(s: string)
    ensures exists i, j :: 0 <= i <= j <= |s| && Trim(s) == s[i..j] && Blank(s[..i]) && Blank(s[j..])
  {
    var i, j := TrimLeft(s), TrimRight(s);
    assert Blank(s[..i]) && Blank(s[j..]);
  }

  /** `trim` leaves nothing exactly of the strings that are whitespace only. */
  lemma TrimBlank(s: string)
    ensures Trim(s) == [] <==> Blank(s)
  {
  }

  /** Where the trimmed part of `s` starts. */
  function TrimLeft(s: string): (i: nat)
    ensures i <= |s|
    ensures forall k :: 0 <= k < i ==> IsWhitespace(s[k])
  {
    SkipBlanks(s, 0)
  }

  /** Where the trimmed part of `s` ends. */
  function TrimRight(s: string): (j: nat)
    ensures TrimLeft(s) <= j <= |s|
    ensures forall k :: j <= k < |s| ==> IsWhitespace(s[k])
  {
    SkipBlanksBack(s, TrimLeft(s), |s|)
  }

  /** Trimming a string that is already trimmed changes nothing. */
  lemma TrimOfTrimmed(s: string)
    requires Trimmed(s)
    ensures Trim(s) == s
  {
  }

  /** A concatenation splits back into its two parts at the seam. */
  lemma SplitAt(a: string, b: string)
    ensures (a + b)[..|a|] == a && (a + b)[|a|..] == b
  {
  }

  /** `trim` is idempotent. */
  lemma TrimIdempotent(s: string)
    ensures Trim(Trim(s)) == Trim(s)
  {
    TrimOfTrimmed(Trim(s));
  }

  /**
   * The lossy rendering both scripts give an error's cause
   * (`causeAsString` in the old script, `sourceAsString` in the new one).
   */
  function Render(v: JsValue): (r: string)
    ensures r == [] <==> v.Error? && v.message == []
    ensures !Truthy(v) ==> r == "<undefined>"
    ensures v.Str? && v.s != [] ==> r == v.s
    ensures v.Error? ==> r == v.message
    ensures IsObject(v) && !v.Error? ==> r == "<object>"
    ensures Truthy(v) && !v.Str? && !IsObject(v) ==> r == "<unknown>"
  {
    if !Truthy(v) then "<undefined>"
    else if v.Str? then v.s
    else if v.Error? then v.message
    else if IsObject(v) then "<object>"
    else "<unknown>"
  }

  /**
   * Rendering never reveals what a structured cause holds: any two
   * non-error objects render identically, whatever their contents.
   */
  lemma RenderHidesObjects(a: JsValue, b: JsValue)
    requires IsObject(a) && !a.Error?
    requires IsObject(b) && !b.Error?
    ensures Render(a) == Render(b)
  {
  }
}

=== FILE: lists.dfy ===
/**
 * Two list traversals the scripts are built from, stated once over any
 * element type: `flatMap`, and a `for…of` loop that collects as it goes
 * and is cut short by the first element that throws.
 */
module Lists {
  import opened Outcomes

  /** `xs.flatMap(f)`: what `f` gives each element, in order. */
  function FlatMap<T, U>(f: T -> seq<U>, xs: seq<T>): seq<U> {
    if xs == [] then [] else f(xs[0]) + FlatMap(f, xs[1..])
  }

  /** When no element gives more than one piece, there are no more pieces than elements. */
  lemma {:induction false} FlatMapAtMostOne<T, U>(f: T -> seq<U>, xs: seq<T>)
    requires forall x :: |f(x)| <= 1
    ensures |FlatMap(f, xs)| <= |xs|
  {
    if xs != [] {
      FlatMapAtMostOne(f, xs[1..]);
    }
  }

  /** A one-element list gives just that element's piece. */
  lemma FlatMapSingle<T, U>(f: T -> seq<U>, x: T)
    ensures FlatMap(f, [x]) == f(x)
  {
    assert [x][1..] == [];
    assert f(x) + [] == f(x);
  }

  /** `flatMap` distributes over concatenation. */
  lemma {:induction false} FlatMapAppend<T, U>(f: T -> seq<U>, a: seq<T>, b: seq<T>)
    ensures FlatMap(f, a + b) == FlatMap(f, a) + FlatMap(f, b)
    decreases |a|
  {
    if a == [] {
      assert a + b == b;
    } else {
      assert (a + b)[0] == a[0];
      assert (a + b)[1..] == a[1..] + b;
      FlatMapAppend(f, a[1..], b);
      assert f(a[0]) + (FlatMap(f, a[1..]) + FlatMap(f, b)) == f(a[0]) + FlatMap(f, a[1..]) + FlatMap(f, b);
    }
  }

  /** A value is produced exactly when some element's piece holds it. */
  lemma {:induction false} FlatMapMembers<T, U>(f: T -> seq<U>, xs: seq<T>, y: U)
    ensures y in FlatMap(f, xs) <==> exists i :: 0 <= i < |xs| && y in f(xs[i])
    decreases |xs|
  {
    if xs != [] {
      FlatMapMembers(f, xs[1..], y);
      if y in FlatMap(f, xs[1..]) {
        var i :| 0 <= i < |xs[1..]| && y in f(xs[1..][i]);
        assert xs[i + 1] == xs[1..][i];
      }
      if exists i :: 0 <= i < |xs| && y in f(xs[i]) {
        var i :| 0 <= i < |xs| && y in f(xs[i]);
        if i > 0 {
          assert xs[1..][i - 1] == xs[i];
        }
      }
    }
  }

  /** What a cut-short loop collected, and the exception that cut it short, if any. */
  datatype Scan<U, E> = Scan(kept: seq<U>, stop: Option<E>)

  /**
   * The loop `for (const x of xs)` whose body either yields a piece to
   * collect or throws: the first throw ends the loop and is kept.
   */
  function ScanUntil<T, U, E>(f: T -> Result<seq<U>, E>, xs: seq<T>): Scan<U, E> {
    if xs == [] then Scan([], None)
    else match f(xs[0])
      case Err(e) => Scan([], Some(e))
      case Ok(piece) =>
        var rest := ScanUntil(f, xs[1..]);
        Scan(piece + rest.kept, rest.stop)
  }

  /**
   * When every turn yields at most one piece and every throw is `e`, the
   * loop collects no more pieces than elements and can only stop with `e`.
   */
  lemma {:induction false} ScanAtMostOne<T, U, E>(f: T -> Result<seq<U>, E>, xs: seq<T>, e: E)
    requires forall x :: f(x).Ok? ==> |f(x).value| <= 1
    requires forall x :: f(x).Err? ==> f(x).error == e
    ensures |ScanUntil(f, xs).kept| <= |xs|
    ensures ScanUntil(f, xs).stop.Some? ==> ScanUntil(f, xs).stop.value == e
  {
    if xs != [] && f(xs[0]).Ok? {
      ScanAtMostOne(f, xs[1..], e);
    }
  }

  /** A loop over one element that does not throw collects that element's piece. */
  lemma ScanSingle<T, U, E>(f: T -> Result<seq<U>, E>, x: T)
    requires f(x).Ok?
    ensures ScanUntil(f, [x]) == Scan(f(x).value, None)
  {
    assert [x][1..] == [];
    assert f(x).value + [] == f(x).value;
  }

  /** A loop over `a + b` whose first part runs through is the two loops one after the other. */
  lemma {:induction false} ScanAppend<T, U, E>(f: T -> Result<seq<U>, E>, a: seq<T>, b: seq<T>)
    requires ScanUntil(f, a).stop.None?
    ensures ScanUntil(f, a + b) == Scan(ScanUntil(f, a).kept + ScanUntil(f, b).kept, ScanUntil(f, b).stop)
    decreases |a|
  {
    if a == [] {
      assert a + b == b;
    } else {
      assert (a + b)[0] == a[0];
      assert (a + b)[1..] == a[1..] + b;
      ScanAppend(f, a[1..], b);
      var piece, ra, rb := f(a[0]).value, ScanUntil(f, a[1..]), ScanUntil(f, b);
      assert piece + (ra.kept + rb.kept) == piece + ra.kept + rb.kept;
    }
  }

  /** The loop runs through exactly when no element throws. */
  lemma {:induction false} ScanRunsThrough<T, U, E>(f: T -> Result<seq<U>, E>, xs: seq<T>)
    ensures ScanUntil(f, xs).stop.None? <==> forall i :: 0 <= i < |xs| ==> f(xs[i]).Ok?
    decreases |xs|
  {
    if xs != [] {
      ScanRunsThrough(f, xs[1..]);
      assert forall i :: 1 <= i < |xs| ==> xs[i] == xs[1..][i - 1];
    }
  }

  /** In a loop that runs through, a value is collected exactly when some element's piece holds it. */
  lemma {:induction false} ScanMembers<T, U, E>(f: T -> Result<seq<U>, E>, xs: seq<T>, y: U)
    requires ScanUntil(f, xs).stop.None?
    ensures y in ScanUntil(f, xs).kept <==> exists i :: 0 <= i < |xs| && f(xs[i]).Ok? && y in f(xs[i]).value
    decreases |xs|
  {
    if xs != [] {
      ScanMembers(f, xs[1..], y);
      if y in ScanUntil(f, xs[1..]).kept {
        var i :| 0 <= i < |xs[1..]| && f(xs[1..][i]).Ok? && y in f(xs[1..][i]).value;
        assert xs[i + 1] == xs[1..][i];
      }
      if exists i :: 0 <= i < |xs| && f(xs[i]).Ok? && y in f(xs[i]).value {
        var i :| 0 <= i < |xs| && f(xs[i]).Ok? && y in f(xs[i]).value;
        if i > 0 {
          assert xs[1..][i - 1] == xs[i];
        }
      }
    }
  }
}

=== FILE: old_errors.dfy ===
/**
 * `ScriptError` of the old script: every message carries a fixed prefix,
 * the underlying value is called the `cause`, and the summary names the
 * error class.
 */
module OldErrors {
  import opened Outcomes
  import opened Js
  import opened ErrorCodes

  /** The error's `name`. */
  const Name: string := "ScriptError"

  /**
   * What the constructor puts before every message: a face emoji whose UTF-8
   * bytes the script file holds re-encoded as four Latin-1 and Windows-1252
   * characters, then a blank.
   */
  const Prefix: string := "\U{00F0}\U{0178}\U{02DC}\U{00A9} "

  /** What the summary starts with before the kind's code. */
  const Lead: string := ">>> " + Name + " - "

  datatype ScriptError = ScriptError(kind: ErrorKind, message: string, cause: JsValue)

  /** `hasMessage`: the message is not blank. */
  predicate HasMessage(e: ScriptError): (has: bool)
    ensures has <==> !Blank(e.message)
  {
    TrimBlank(e.message);
    ShowsMessage(e.message)
  }

  /** `new ScriptError(message, type, cause)`; an omitted `type` is `None`. */
  function New(message: string, kind: Option<ErrorKind>, cause: JsValue): (e: ScriptError)
    ensures e.message == Prefix + message
    ensures kind.None? ==> e.kind == UnknownError
    ensures kind.Some? ==> e.kind == kind.value
    ensures e.cause == cause
  {
    ScriptError(if kind.Some? then kind.value else UnknownError, Prefix + message, cause)
  }

  /** The prefix makes every error the constructor builds carry a message, even for `''`. */
  lemma NewHasMessage(message: string, kind: Option<ErrorKind>, cause: JsValue)
    ensures HasMessage(New(message, kind, cause))
  {
    var e := New(message, kind, cause);
    assert !IsWhitespace(e.message[0]);
  }

  /** The error as a thrown JavaScript value (an `Error` instance). */
  function AsValue(e: ScriptError): (v: JsValue)
    ensures v.Error? && Render(v) == e.message
  {
    Error(e.message, Script(Code(e.kind), e.cause))
  }

  /**
   * `ScriptError.handle(error, message)`. It never returns normally; its
   * value here is the ScriptError it throws. Axios errors keep only their
   * message; anything else is kept whole as the cause.
   */
  function Handle(error: JsValue, message: string): (thrown: ScriptError)
    ensures thrown.kind == AxiosError <==> error.Error? && error.origin.Axios?
    ensures thrown.kind != AxiosError ==> thrown.kind == ServiceUnavailable && thrown.cause == error
    ensures thrown.message == Prefix + message
    ensures error.Error? && error.origin.Axios? ==> thrown.cause == Str(error.message)
    ensures error.Error? && error.message != [] ==> Render(thrown.cause) == error.message
  {
    if error.Error? && error.origin.Axios? then New(message, Some(AxiosError), Str(error.message))
    else New(message, Some(ServiceUnavailable), error)
  }

  /** `toString()`: the class name, then the type code and the bracketed cause. */
  function ToString(e: ScriptError): (s: string)
    ensures var head := Lead + Code(e.kind) + " (";
      |head| <= |s| && s[..|head|] == head
    ensures var head := Lead + Code(e.kind) + " (" + Render(e.cause) + ")";
      |head| <= |s| && s[..|head|] == head
  {
    LeadSummaryStartsWithHead(Lead, e.kind, Render(e.cause), e.message);
    Lead + Summary(e.kind, Render(e.cause), e.message)
  }

  /** `toJson()`: nothing of the error is lost, it can be read back whole. */
  function ToJson(e: ScriptError): (j: ErrorJson)
    ensures FromJson(j) == Some(e)
    ensures j.details == ToString(e)
  {
    CodeRoundTrip(e.kind);
    ErrorJson(Code(e.kind), e.message, e.cause, ToString(e))
  }

  /** Reads a `toJson` record back into an error; `None` for an unknown code. */
  function FromJson(j: ErrorJson): Option<ScriptError> {
    match KindOf(j.code)
    case Some(k) => Some(ScriptError(k, j.message, j.origin))
    case None => None
  }

  /** Every error the constructor builds prints as `…: <message>`. */
  lemma ToStringEndsWithMessage(message: string, kind: Option<ErrorKind>, cause: JsValue)
    ensures var e := New(message, kind, cause);
      EndsWith(ToString(e), ": " + e.message)
  {
    var e := New(message, kind, cause);
    NewHasMessage(message, kind, cause);
    SummaryShowsMessageIff(e.kind, Render(e.cause), e.message);
    EndsWithAfter(Lead, Summary(e.kind, Render(e.cause), e.message), ": " + e.message);
  }

  /** The kind can be read back from the summary: it is the word after `Lead`. */
  lemma ToStringNamesKind(e: ScriptError)
    ensures var s := ToString(e);
      && |Lead| <= |s| && s[..|Lead|] == Lead
      && KindOf(FirstWord(s[|Lead|..])) == Some(e.kind)
  {
    SplitAt(Lead, Summary(e.kind, Render(e.cause), e.message));
    SummaryNamesKind(e.kind, Render(e.cause), e.message);
  }

  /**
   * The summary is lossy where the JSON form is not: two errors whose causes
   * are different objects print the same.
   */
  lemma ToStringHidesObjectCauses(kind: ErrorKind, message: string, a: JsValue, b: JsValue)
    requires IsObject(a) && !a.Error? && IsObject(b) && !b.Error?
    ensures ToString(ScriptError(kind, message, a)) == ToString(ScriptError(kind, message, b))
  {
    RenderHidesObjects(a, b);
  }
}

=== FILE: old_script.dfy ===
/**
 * The decision logic of the old export/import script: argument validation,
 * the import metadata, the submit and status-check wrappers, the choice of
 * files to download, and the two end-to-end flows with the network and the
 * file system replaced by scripted answers.
 */
module OldScript {
  import opened Outcomes
  import opened Js
  import opened Lists
  import opened ErrorCodes
  import opened Services
  import opened Http
  import opened Poller
  import opened OldErrors

  /** `CICD_HANDLER`, sent as `source_system`. */
  const CicdHandler: string := "GitHub Actions"

  // ---------------------------------------------------------------- validation

  /**
   * `isEmpty(text)`: a primitive or boxed string whose `trim` is empty, which
   * is exactly one holding only whitespace. Nothing else is empty.
   */
  predicate IsEmpty(text: JsValue): (empty: bool)
    ensures empty <==> (text.Str? && Blank(text.s)) || (text.StrObject? && Blank(text.boxed))
  {
    TrimBlank(if text.Str? then text.s else if text.StrObject? then text.boxed else []);
    match text
    case Str(s) => Trim(s) == []
    case StrObject(s) => Trim(s) == []
    case _ => false
  }

  /** The four positional arguments `exp` and `imp` validate. */
  datatype Args = Args(env: JsValue, tenant: JsValue, token: JsValue, services: JsValue)

  datatype Arg = EnvArg | TenantArg | TokenArg | ServicesArg

  /** The order in which `validateArgs` checks its arguments. */
  const ArgOrder: seq<Arg> := [EnvArg, TenantArg, TokenArg, ServicesArg]

  function Label(a: Arg): string {
    match a
    case EnvArg => "env"
    case TenantArg => "tenant"
    case TokenArg => "token"
    case ServicesArg => "services"
  }

  function ValueOf(args: Args, a: Arg): JsValue {
    match a
    case EnvArg => args.env
    case TenantArg => args.tenant
    case TokenArg => args.token
    case ServicesArg => args.services
  }

  /** An argument fails its check: a blank string, or no services after sanitising. */
  predicate Missing(args: Args, parse: JsonParse, a: Arg) {
    if a == ServicesArg then Sanitize(args.services, parse) == [] else IsEmpty(ValueOf(args, a))
  }

  /** The error thrown for a missing argument: it names it and keeps its value. */
  function MissingError(args: Args, a: Arg): ScriptError {
    New("<" + Label(a) + "> is required", Some(ArgumentMissing), ValueOf(args, a))
  }

  /** How many arguments, in `ArgOrder`, pass their check before the first that fails. */
  function FirstMissing(args: Args, parse: JsonParse): (k: nat)
    ensures k <= |ArgOrder|
    ensures forall j :: 0 <= j < k ==> !Missing(args, parse, ArgOrder[j])
    ensures k < |ArgOrder| ==> Missing(args, parse, ArgOrder[k])
  {
    FirstMissingFrom(args, parse, 0)
  }

  function FirstMissingFrom(args: Args, parse: JsonParse, i: nat): (k: nat)
    requires i <= |ArgOrder|
    ensures i <= k <= |ArgOrder|
    ensures forall j :: i <= j < k ==> !Missing(args, parse, ArgOrder[j])
    ensures k < |ArgOrder| ==> Missing(args, parse, ArgOrder[k])
    decreases |ArgOrder| - i
  {
    if i == |ArgOrder| || Missing(args, parse, ArgOrder[i]) then i else FirstMissingFrom(args, parse, i + 1)
  }

  /**
   * `validateArgs(env, tenant, token, services)`; `None` when it returns,
   * the thrown error otherwise. It fails exactly when some argument is
   * missing, and then names the first one in `ArgOrder` and carries its
   * value as the cause.
   */
  function ValidateArgs(args: Args, parse: JsonParse): (r: Option<ScriptError>)
    ensures var k := FirstMissing(args, parse);
      && (r.None? <==> k == |ArgOrder|)
      && (r.Some? ==> k < |ArgOrder| && r.value == MissingError(args, ArgOrder[k]))
  {
    if IsEmpty(args.env) then
      assert Missing(args, parse, ArgOrder[0]);
      Some(MissingError(args, EnvArg))
    else if IsEmpty(args.tenant) then
      assert FirstMissingFrom(args, parse, 0) == FirstMissingFrom(args, parse, 1) == 1;
      Some(MissingError(args, TenantArg))
    else if IsEmpty(args.token) then
      assert FirstMissingFrom(args, parse, 0) == FirstMissingFrom(args, parse, 1);
      assert FirstMissingFrom(args, parse, 1) == FirstMissingFrom(args, parse, 2) == 2;
      Some(MissingError(args, TokenArg))
    else
      assert FirstMissingFrom(args, parse, 0) == FirstMissingFrom(args, parse, 1);
      assert FirstMissingFrom(args, parse, 1) == FirstMissingFrom(args, parse, 2);
      assert FirstMissingFrom(args, parse, 2) == FirstMissingFrom(args, parse, 3);
      if |Sanitize(args.services, parse)| == 0 then
        assert FirstMissingFrom(args, parse, 3) == 3;
        Some(MissingError(args, ServicesArg))
      else
        assert FirstMissingFrom(args, parse, 3) == 4;
        None
  }

  /**
   * Only strings can be "empty": `undefined`, `null`, numbers and objects
   * pass the env, tenant and token checks, so validation then depends on the
   * services alone.
   */
  lemma NonStringArgsPass(args: Args, parse: JsonParse)
    requires !args.env.Str? && !args.env.StrObject?
    requires !args.tenant.Str? && !args.tenant.StrObject?
    requires !args.token.Str? && !args.token.StrObject?
    ensures ValidateArgs(args, parse).None? <==> Sanitize(args.services, parse) != []
  {
  }

  // ---------------------------------------------------------- import metadata

  /** The single entry of `inputs.services_modify`. */
  datatype ServiceModify = ServiceModify(serviceUriSource: string, serviceUriDestination: string, updateVersionType: string)

  /** The `importRequestEntity` part of the upload, before `JSON.stringify`. */
  datatype ImportMetadata = ImportMetadata(servicesModify: seq<ServiceModify>, servicesExisting: string, sourceSystem: string)

  /**
   * The metadata `createFormData` builds. The destination list comes from
   * `target || source`: a falsy target falls back to the source, a truthy
   * one is used even when it sanitises to nothing.
   */
  function CreateMetadata(source: JsValue, target: JsValue, parse: JsonParse): (m: ImportMetadata)
    ensures |m.servicesModify| == 1
    ensures m.servicesModify[0].serviceUriSource == Join(Sanitize(source, parse))
    ensures !Truthy(target) ==> m.servicesModify[0].serviceUriDestination == m.servicesModify[0].serviceUriSource
    ensures Truthy(target) ==> m.servicesModify[0].serviceUriDestination == Join(Sanitize(target, parse))
    ensures m.servicesModify[0].updateVersionType == "major"
    ensures m.servicesExisting == "update" && m.sourceSystem == CicdHandler
  {
    var sourceUri := Join(Sanitize(source, parse));
    var targetUri := Join(Sanitize(if Truthy(target) then target else source, parse));
    ImportMetadata([ServiceModify(sourceUri, targetUri, "major")], "update", CicdHandler)
  }

  /**
   * The comma-joined source list loses nothing when no reference contains a
   * comma: splitting it gives back the sanitised list.
   */
  lemma MetadataSourceRoundTrip(source: JsValue, target: JsValue, parse: JsonParse)
    requires Sanitize(source, parse) != []
    requires forall i :: 0 <= i < |Sanitize(source, parse)| ==> CommaFree(Sanitize(source, parse)[i])
    ensures Split(CreateMetadata(source, target, parse).servicesModify[0].serviceUriSource) == Sanitize(source, parse)
  {
    SplitJoin(Sanitize(source, parse));
  }

  // ------------------------------------------------------------------ submit

  /**
   * `executeApiService`: the response body on status 200. Any other status
   * throws SERVICE_UNAVAILABLE inside the `try`, so `handle` wraps that
   * error once more, as the cause of a second SERVICE_UNAVAILABLE.
   */
  function ExecuteApiService(endpoint: string, reply: PostReply): (r: Result<JsValue, ScriptError>)
    ensures r.Ok? <==> reply.Posted? && reply.status == 200
    ensures r.Ok? ==> r.value == reply.data
    ensures r.Err? ==> r.error.message == Prefix + "failed to POST " + endpoint
    ensures reply.Posted? && reply.status != 200 ==>
              r.error.kind == ServiceUnavailable && Render(r.error.cause) == Prefix + "failed to execute API"
    ensures reply.PostFailed? ==> (r.error.kind == AxiosError <==> reply.error.Error? && reply.error.origin.Axios?)
    ensures reply.PostFailed? ==> r == Err(Handle(reply.error, "failed to POST " + endpoint))
    ensures reply.Posted? && reply.status != 200 ==>
              r.error.cause == AsValue(New("failed to execute API", Some(ServiceUnavailable), Undefined))
  {
    var context := "failed to POST " + endpoint;
    match reply
    case Posted(status, data) =>
      if status != 200 then
        Err(Handle(AsValue(New("failed to execute API", Some(ServiceUnavailable), Undefined)), context))
      else Ok(data)
    case PostFailed(error) => Err(Handle(error, context))
  }

  /** `response && response['status_url']`. */
  function StatusUrlOf(response: JsValue): (url: JsValue)
    ensures response.Obj? ==> url == (if "status_url" in response.fields then response.fields["status_url"] else Undefined)
    ensures !Truthy(response) ==> url == response
  {
    if Truthy(response) then Get(response, "status_url").value else response
  }

  // ------------------------------------------------------------ status check

  /**
   * How one GET of the old `checkStatus` steers the loop: a thrown request
   * or a body without properties is an exception; a terminal status yields
   * `data.outputs`; anything else is pending.
   */
  function StatusStep(reply: Reply): (step: Step)
    ensures reply.Threw? ==> step == Fault(reply.error)
    ensures reply.Answered? && Nullish(reply.data) ==> step == Fault(TypeErrorValue)
    ensures reply.Answered? && reply.data.Obj? ==>
              var fields := reply.data.fields;
              && (step.Terminal? <==> "status" in fields && IsTerminalStatus(fields["status"]))
              && (step.Terminal? ==> step.outputs == (if "outputs" in fields then fields["outputs"] else Undefined))
    ensures reply.Answered? && !Nullish(reply.data) ==>
              (step.Pending? <==> !IsTerminalStatus(Get(reply.data, "status").value))
  {
    match reply
    case Threw(error) => Fault(error)
    case Answered(data) =>
      match Get(data, "status")
      case Err(thrown) => Fault(thrown)
      case Ok(status) => if IsTerminalStatus(status) then Terminal(Get(data, "outputs").value) else Pending
  }

  /**
   * The old `checkStatus`: the shared loop, reading each answer with this
   * script's `StatusStep` and re-throwing through this script's `handle`.
   */
  function CheckStatus(replies: seq<Reply>): (c: StatusCheck<ScriptError>)
    requires |replies| >= MaxRetries
    ensures 1 <= c.calls <= MaxRetries
    ensures forall j :: 0 <= j < c.calls - 1 ==> StatusStep(replies[j]).Pending?
    ensures c.result.Err? ==>
              && StatusStep(replies[c.calls - 1]).Fault?
              && c.result.error == Handle(StatusStep(replies[c.calls - 1]).error, "failed to check status")
  {
    Check(StatusStep, e => Handle(e, "failed to check status"), replies)
  }

  /**
   * Pending for `n` answers and then terminal: the outputs of that answer,
   * after `n + 1` GETs and `1000 · n(n+1)/2` ms of sleep.
   */
  lemma CheckStatusFirstTerminal(replies: seq<Reply>, n: nat, outputs: JsValue)
    requires |replies| >= MaxRetries && n < MaxRetries
    requires forall j :: 0 <= j < n ==> StatusStep(replies[j]).Pending?
    requires StatusStep(replies[n]) == Terminal(outputs)
    ensures var c := CheckStatus(replies);
      c.result == Ok(outputs) && c.calls == n + 1 && 2 * c.waitedMs == BackoffUnitMs * n * (n + 1)
  {
    PollClosedForm(Steps(StatusStep, replies));
    assert FirstStop(Steps(StatusStep, replies)) == n;
  }

  /**
   * An exception on the (n+1)-th GET: no further GET, and the error escapes
   * through `handle` (AXIOS_ERROR for a transport failure).
   */
  lemma CheckStatusStopsOnException(replies: seq<Reply>, n: nat, error: JsValue)
    requires |replies| >= MaxRetries && n < MaxRetries
    requires forall j :: 0 <= j < n ==> StatusStep(replies[j]).Pending?
    requires replies[n] == Threw(error)
    ensures var c := CheckStatus(replies);
      && c.calls == n + 1
      && c.result == Err(Handle(error, "failed to check status"))
      && (error.Error? && error.origin.Axios? ==> c.result.error.kind == AxiosError)
  {
    PollClosedForm(Steps(StatusStep, replies));
    assert FirstStop(Steps(StatusStep, replies)) == n;
  }

  /**
   * All ten answers pending: `[]` and no error, after ten GETs and 55 s of
   * sleep.
   */
  lemma CheckStatusExhausted(replies: seq<Reply>)
    requires |replies| >= MaxRetries
    requires forall j :: 0 <= j < MaxRetries ==> StatusStep(replies[j]).Pending?
    ensures CheckStatus(replies) == StatusCheck(Ok(Arr([])), MaxRetries, 55000)
  {
    PollClosedForm(Steps(StatusStep, replies));
  }

  // ------------------------------------------------------- download selection

  /** The URLs the export loop hands to `downloadFile` (`kept`), and the TypeError that stops it early (`stop`). */
  type Selection = Scan<JsValue, JsValue>

  /**
   * The `for (const file of outputs.files)` loop: `file['file']` is
   * downloaded unless it is a blank string. A `null` or `undefined` entry
   * throws, ending the loop.
   */
  function SelectDownloads(files: seq<JsValue>): (sel: Selection)
    ensures |sel.kept| <= |files|
    ensures sel.stop.Some? ==> sel.stop.value == TypeErrorValue
  {
    ScanAtMostOne(Visit, files, TypeErrorValue);
    ScanUntil(Visit, files)
  }

  /**
   * One turn of the loop: `file['file']` unless it is a blank string, or
   * the TypeError a `null`/`undefined` entry throws.
   */
  function Visit(file: JsValue): (r: Result<seq<JsValue>, JsValue>)
    ensures r.Err? <==> Nullish(file)
    ensures r.Err? ==> r.error == TypeErrorValue
    ensures r.Ok? ==> |r.value| <= 1
  {
    match Get(file, "file")
    case Err(thrown) => Err(thrown)
    case Ok(url) => Ok(if IsEmpty(url) then [] else [url])
  }

  /** No blank string is ever handed to `downloadFile`. */
  lemma {:induction false} SelectSkipsEmpty(files: seq<JsValue>)
    ensures forall i :: 0 <= i < |SelectDownloads(files).kept| ==> !IsEmpty(SelectDownloads(files).kept[i])
    decreases |files|
  {
    if files != [] && !Nullish(files[0]) {
      SelectSkipsEmpty(files[1..]);
      var piece, rest := Visit(files[0]).value, SelectDownloads(files[1..]);
      assert SelectDownloads(files).kept == piece + rest.kept;
      assert forall i :: 0 <= i < |piece| ==> !IsEmpty(piece[i]);
    }
  }

  /** The loop runs to the end exactly when no entry is `null` or `undefined`. */
  lemma SelectFaultIff(files: seq<JsValue>)
    ensures SelectDownloads(files).stop.None? <==> forall i :: 0 <= i < |files| ==> !Nullish(files[i])
  {
    ScanRunsThrough(Visit, files);
  }

  /** Selection distributes over concatenation, so files are visited in order. */
  lemma SelectAppend(a: seq<JsValue>, b: seq<JsValue>)
    requires SelectDownloads(a).stop.None?
    ensures SelectDownloads(a + b) == Scan(SelectDownloads(a).kept + SelectDownloads(b).kept, SelectDownloads(b).stop)
  {
    ScanAppend(Visit, a, b);
  }

  /**
   * Without a `null`/`undefined` entry, a value is downloaded exactly when
   * some entry's `file` is that value and it is not a blank string.
   */
  lemma SelectMembers(files: seq<JsValue>, u: JsValue)
    requires SelectDownloads(files).stop.None?
    ensures u in SelectDownloads(files).kept <==>
            exists i :: 0 <= i < |files| && Get(files[i], "file") == Ok(u) && !IsEmpty(u)
  {
    ScanMembers(Visit, files, u);
    forall i | 0 <= i < |files|
      ensures (Visit(files[i]).Ok? && u in Visit(files[i]).value) <==> Get(files[i], "file") == Ok(u) && !IsEmpty(u)
    {
    }
  }

  /** The first `null`/`undefined` entry ends the loop: nothing after it is downloaded. */
  lemma StopsAtNullishEntry(a: seq<JsValue>, v: JsValue, b: seq<JsValue>)
    requires SelectDownloads(a).stop.None? && Nullish(v)
    ensures SelectDownloads(a + [v] + b) == Scan(SelectDownloads(a).kept, Some(TypeErrorValue))
  {
    SelectAppend(a, [v] + b);
    assert a + [v] + b == a + ([v] + b);
    assert ([v] + b)[0] == v;
    assert SelectDownloads(a).kept + [] == SelectDownloads(a).kept;
  }

  // ---------------------------------------------------------------- transfer

  /**
   * How `downloadFile(url)` settles. `Unsettled` is a GET that failed: the
   * error is only logged, nothing ends the write stream, and the promise
   * never settles. `Rejected` is a write-stream error.
   */
  datatype Download = Saved | Unsettled | Rejected(reason: JsValue)

  /** How the export flow ends: normally, with an exception (exit code 1), or never. */
  datatype ExportEnd = Finished | Aborted(thrown: JsValue) | Stalled

  datatype Transfer = Transfer(attempted: seq<JsValue>, end: ExportEnd)

  /** Awaiting `downloadFile` for each URL in turn; the first one that does not resolve ends the loop. */
  function DownloadAll(urls: seq<JsValue>, download: JsValue -> Download): (t: Transfer)
    ensures |t.attempted| <= |urls| && t.attempted == urls[..|t.attempted|]
    ensures forall i :: 0 <= i < |t.attempted| - 1 ==> download(t.attempted[i]) == Saved
    ensures t.end.Finished? <==> t.attempted == urls && forall i :: 0 <= i < |urls| ==> download(urls[i]) == Saved
    ensures !t.end.Finished? ==> t.attempted != [] && download(t.attempted[|t.attempted| - 1]) != Saved
  {
    if urls == [] then Transfer([], Finished)
    else match download(urls[0])
      case Saved =>
        var rest := DownloadAll(urls[1..], download);
        assert forall i :: 1 <= i < |urls| ==> urls[i] == urls[1..][i - 1];
        Transfer([urls[0]] + rest.attempted, rest.end)
      case Unsettled => Transfer([urls[0]], Stalled)
      case Rejected(reason) => Transfer([urls[0]], Aborted(reason))
  }

  // ------------------------------------------------------------- export flow

  /** The JSON body posted to the export endpoint. */
  datatype ExportBody = ExportBody(services: seq<string>, sourceSystem: string)

  /**
   * One run of `exp`: the body it posted (none if validation failed), the
   * status GETs and sleep, the URLs it tried to download, and how it ended.
   */
  datatype ExportRun = ExportRun(request: Option<ExportBody>, calls: nat, waitedMs: nat, attempted: seq<JsValue>, end: ExportEnd)

  /**
   * `if (outputs && outputs.files.length === 0) throw …` followed by the
   * iteration of `outputs.files`: the entries to visit, or what is thrown.
   */
  function ExportFiles(outputs: JsValue): (r: Result<seq<JsValue>, JsValue>)
    ensures outputs.Obj? && "files" in outputs.fields && outputs.fields["files"].Arr? ==>
              r == (if outputs.fields["files"].items == []
                    then Err(AsValue(New("failed to obtain <$.outputs.files>", Some(Unprocessable), Undefined)))
                    else Ok(outputs.fields["files"].items))
    ensures outputs == Arr([]) ==> r == Err(TypeErrorValue)
  {
    if Truthy(outputs) then
      var files := Get(outputs, "files").value;
      match Get(files, "length")
      case Err(thrown) => Err(thrown)
      case Ok(length) =>
        if length == Num(0) then Err(AsValue(New("failed to obtain <$.outputs.files>", Some(Unprocessable), Undefined)))
        else Iterate(files)
    else
      match Get(outputs, "files")
      case Err(thrown) => Err(thrown)
      case Ok(files) => Iterate(files)
  }

  /** The downloads once the status check has produced `outputs`. */
  function AfterOutputs(outputs: JsValue, download: JsValue -> Download): (t: Transfer)
    ensures forall i :: 0 <= i < |t.attempted| ==> !IsEmpty(t.attempted[i])
    ensures ExportFiles(outputs).Err? ==> t == Transfer([], Aborted(ExportFiles(outputs).error))
    ensures ExportFiles(outputs).Ok? ==>
              var sel := SelectDownloads(ExportFiles(outputs).value);
              && |t.attempted| <= |sel.kept| && t.attempted == sel.kept[..|t.attempted|]
              && (t.end.Finished? <==>
                    sel.stop.None? && t.attempted == sel.kept
                    && forall i :: 0 <= i < |sel.kept| ==> download(sel.kept[i]) == Saved)
  {
    match ExportFiles(outputs)
    case Err(thrown) => Transfer([], Aborted(thrown))
    case Ok(files) =>
      var sel := SelectDownloads(files);
      SelectSkipsEmpty(files);
      var t := DownloadAll(sel.kept, download);
      assert forall i :: 0 <= i < |t.attempted| ==> t.attempted[i] == sel.kept[i];
      if t.end.Finished? && sel.stop.Some? then Transfer(t.attempted, Aborted(sel.stop.value)) else t
  }

  /**
   * `exp(env, tenant, token, services)`. `endpoint` is the export URL built
   * from env and tenant; `post`, `polls` and `download` stand for the
   * network.
   */
  function Export(args: Args, parse: JsonParse, endpoint: string, post: PostReply,
                  polls: seq<Reply>, download: JsValue -> Download): (run: ExportRun)
    requires |polls| >= MaxRetries
    ensures run.calls <= MaxRetries
    ensures run.request.None? <==> ValidateArgs(args, parse).Some?
    ensures run.request.None? ==>
              run.calls == 0 && run.attempted == [] && run.end == Aborted(AsValue(ValidateArgs(args, parse).value))
    ensures run.request.Some? ==>
              run.request.value.services == Sanitize(args.services, parse) != []
    ensures run.attempted != [] ==> run.calls >= 1
    ensures forall i :: 0 <= i < |run.attempted| ==> !IsEmpty(run.attempted[i])
    ensures run.request.Some? && ExecuteApiService(endpoint, post).Err? ==>
              run.calls == 0 && run.attempted == [] && run.end == Aborted(AsValue(ExecuteApiService(endpoint, post).error))
    ensures run.request.Some? && ExecuteApiService(endpoint, post).Ok? && IsEmpty(StatusUrlOf(ExecuteApiService(endpoint, post).value)) ==>
              run.calls == 0 && run.attempted == [] &&
              run.end == Aborted(AsValue(New("failed to obtain <$.status_url>", Some(Unprocessable), ExecuteApiService(endpoint, post).value)))
    ensures run.request.Some? && ExecuteApiService(endpoint, post).Ok? && !IsEmpty(StatusUrlOf(ExecuteApiService(endpoint, post).value)) ==>
              var check := CheckStatus(polls);
              && run.calls == check.calls && run.waitedMs == check.waitedMs
              && (check.result.Err? ==> run.attempted == [] && run.end == Aborted(AsValue(check.result.error)))
              && (check.result.Ok? ==> Transfer(run.attempted, run.end) == AfterOutputs(check.result.value, download))
  {
    match ValidateArgs(args, parse)
    case Some(e) => ExportRun(None, 0, 0, [], Aborted(AsValue(e)))
    case None =>
      assert !Missing(args, parse, ArgOrder[3]);
      var body := ExportBody(Sanitize(args.services, parse), CicdHandler);
      match ExecuteApiService(endpoint, post)
      case Err(e) => ExportRun(Some(body), 0, 0, [], Aborted(AsValue(e)))
      case Ok(response) =>
        if IsEmpty(StatusUrlOf(response)) then
          ExportRun(Some(body), 0, 0, [], Aborted(AsValue(New("failed to obtain <$.status_url>", Some(Unprocessable), response))))
        else
          var check := CheckStatus(polls);
          match check.result
          case Err(e) => ExportRun(Some(body), check.calls, check.waitedMs, [], Aborted(AsValue(e)))
          case Ok(outputs) =>
            var t := AfterOutputs(outputs, download);
            ExportRun(Some(body), check.calls, check.waitedMs, t.attempted, t.end)
  }

  /** Two listed files, both saved: both are downloaded, in list order. */
  lemma TwoFilesDownloaded(u1: string, u2: string, download: JsValue -> Download)
    requires !Blank(u1) && !Blank(u2)
    requires download(Str(u1)) == Saved && download(Str(u2)) == Saved
    ensures AfterOutputs(Obj(map["files" := Arr([Obj(map["file" := Str(u1)]), Obj(map["file" := Str(u2)])])]), download)
              == Transfer([Str(u1), Str(u2)], Finished)
  {
    var files := [Obj(map["file" := Str(u1)]), Obj(map["file" := Str(u2)])];
    TrimBlank(u1);
    TrimBlank(u2);
    assert files[1..][1..] == [];
    assert Visit(files[0]) == Ok([Str(u1)]);
    assert Visit(files[1]) == Ok([Str(u2)]);
    assert files[1..] == [files[1]];
    ScanSingle(Visit, files[1]);
    assert SelectDownloads(files) == Scan([Str(u1), Str(u2)], None);
    var urls := [Str(u1), Str(u2)];
    assert urls[1..][1..] == [];
    assert DownloadAll(urls[1..], download) == Transfer(urls[1..], Finished);
  }

  /**
   * A status check whose first answer lists two files: both are downloaded,
   * in list order, after a single status GET.
   */
  lemma ExportDownloadsInOrder(args: Args, parse: JsonParse, endpoint: string, statusUrl: string,
                               polls: seq<Reply>, u1: string, u2: string, download: JsValue -> Download)
    requires ValidateArgs(args, parse).None?
    requires !Blank(statusUrl)
    requires |polls| >= MaxRetries
    requires polls[0] == Answered(Obj(map[
               "status" := Str("completed"),
               "outputs" := Obj(map["files" := Arr([Obj(map["file" := Str(u1)]), Obj(map["file" := Str(u2)])])])]))
    requires !Blank(u1) && !Blank(u2)
    requires download(Str(u1)) == Saved && download(Str(u2)) == Saved
    ensures var run := Export(args, parse, endpoint, Posted(200, Obj(map["status_url" := Str(statusUrl)])), polls, download);
      run.calls == 1 && run.attempted == [Str(u1), Str(u2)] && run.end == Finished
  {
    var outputs := Obj(map["files" := Arr([Obj(map["file" := Str(u1)]), Obj(map["file" := Str(u2)])])]);
    assert StatusStep(polls[0]) == Terminal(outputs);
    CheckStatusFirstTerminal(polls, 0, outputs);
    TrimBlank(statusUrl);
    TwoFilesDownloaded(u1, u2, download);
  }

  /**
   * Ten pending answers do not end the export cleanly: the status check
   * returns `[]`, and reading `[].files.length` throws a TypeError.
   */
  lemma ExportExhaustedThrows(args: Args, parse: JsonParse, endpoint: string, statusUrl: string,
                              polls: seq<Reply>, download: JsValue -> Download)
    requires ValidateArgs(args, parse).None?
    requires !Blank(statusUrl)
    requires |polls| >= MaxRetries
    requires forall j :: 0 <= j < MaxRetries ==> StatusStep(polls[j]).Pending?
    ensures var run := Export(args, parse, endpoint, Posted(200, Obj(map["status_url" := Str(statusUrl)])), polls, download);
      run.calls == MaxRetries && run.waitedMs == 55000 && run.attempted == [] && run.end == Aborted(TypeErrorValue)
  {
    CheckStatusExhausted(polls);
  }

  /**
   * A response without `status_url` is not caught by the `isEmpty` guard
   * (`undefined` is not a string), so polling goes ahead.
   */
  lemma MissingStatusUrlIsPolled(args: Args, parse: JsonParse, endpoint: string,
                                 polls: seq<Reply>, download: JsValue -> Download)
    requires ValidateArgs(args, parse).None?
    requires |polls| >= MaxRetries
    ensures Export(args, parse, endpoint, Posted(200, Obj(map[])), polls, download).calls >= 1
  {
  }

  // ------------------------------------------------------------- import flow

  /**
   * One run of `imp`: the metadata it uploaded (none if validation failed),
   * the status GETs and sleep, and either the logged count of imported
   * services (exit code 0) or what was thrown (exit code 1).
   */
  datatype ImportRun = ImportRun(metadata: Option<ImportMetadata>, calls: nat, waitedMs: nat, end: Result<JsValue, JsValue>)

  /** The process exit code `imp` ends with. */
  function ExitCode(run: ImportRun): (code: int)
    ensures code == 0 <==> run.end.Ok?
    ensures run.end.Err? ==> code == 1
  {
    if run.end.Ok? then 0 else 1
  }

  /**
   * `if (outputs && outputs.services.length === 0) throw …` and the count
   * logged afterwards: `outputs.services.length`, or what is thrown.
   */
  function ImportedCount(outputs: JsValue): (r: Result<JsValue, JsValue>)
    ensures outputs.Obj? && "services" in outputs.fields && outputs.fields["services"].Arr? ==>
              r == (if outputs.fields["services"].items == []
                    then Err(AsValue(New("failed to obtain <$.outputs.services>", Some(Unprocessable), Undefined)))
                    else Ok(Num(|outputs.fields["services"].items|)))
    ensures outputs == Arr([]) ==> r == Err(TypeErrorValue)
  {
    if Truthy(outputs) then
      var services := Get(outputs, "services").value;
      match Get(services, "length")
      case Err(thrown) => Err(thrown)
      case Ok(length) =>
        if length == Num(0) then Err(AsValue(New("failed to obtain <$.outputs.services>", Some(Unprocessable), Undefined)))
        else Ok(length)
    else
      match Get(outputs, "services")
      case Err(thrown) => Err(thrown)
      case Ok(services) => Get(services, "length")
  }

  /**
   * `imp(env, tenant, token, source, target)`, `args.services` being the
   * source; `endpoint` is the import URL built from env and tenant.
   */
  function Import(args: Args, target: JsValue, parse: JsonParse, endpoint: string,
                  post: PostReply, polls: seq<Reply>): (run: ImportRun)
    requires |polls| >= MaxRetries
    ensures run.calls <= MaxRetries
    ensures run.metadata.None? <==> ValidateArgs(args, parse).Some?
    ensures run.metadata.None? ==>
              run.calls == 0 && run.end == Err(AsValue(ValidateArgs(args, parse).value))
    ensures run.metadata.Some? ==>
              |run.metadata.value.servicesModify| == 1 && run.metadata.value.servicesModify[0].serviceUriSource != []
    ensures run.end.Ok? ==> run.calls >= 1
    ensures run.metadata.Some? ==> run.metadata.value == CreateMetadata(args.services, target, parse)
    ensures ExitCode(run) == 0 ==> ValidateArgs(args, parse).None? && run.metadata.Some? && run.calls >= 1
    ensures run.metadata.Some? && ExecuteApiService(endpoint, post).Err? ==>
              run.calls == 0 && run.end == Err(AsValue(ExecuteApiService(endpoint, post).error))
    ensures run.metadata.Some? && ExecuteApiService(endpoint, post).Ok? && IsEmpty(StatusUrlOf(ExecuteApiService(endpoint, post).value)) ==>
              run.calls == 0 &&
              run.end == Err(AsValue(New("failed to obtain <$.status_url>", Some(Unprocessable), ExecuteApiService(endpoint, post).value)))
    ensures run.metadata.Some? && ExecuteApiService(endpoint, post).Ok? && !IsEmpty(StatusUrlOf(ExecuteApiService(endpoint, post).value)) ==>
              var check := CheckStatus(polls);
              && run.calls == check.calls && run.waitedMs == check.waitedMs
              && run.end == (if check.result.Ok? then ImportedCount(check.result.value) else Err(AsValue(check.result.error)))
  {
    match ValidateArgs(args, parse)
    case Some(e) => ImportRun(None, 0, 0, Err(AsValue(e)))
    case None =>
      assert !Missing(args, parse, ArgOrder[3]);
      SanitizeYieldsServiceRefs(args.services, parse);
      var metadata := CreateMetadata(args.services, target, parse);
      match ExecuteApiService(endpoint, post)
      case Err(e) => ImportRun(Some(metadata), 0, 0, Err(AsValue(e)))
      case Ok(response) =>
        if IsEmpty(StatusUrlOf(response)) then
          ImportRun(Some(metadata), 0, 0, Err(AsValue(New("failed to obtain <$.status_url>", Some(Unprocessable), response))))
        else
          var check := CheckStatus(polls);
          match check.result
          case Err(e) => ImportRun(Some(metadata), check.calls, check.waitedMs, Err(AsValue(e)))
          case Ok(outputs) => ImportRun(Some(metadata), check.calls, check.waitedMs, ImportedCount(outputs))
  }

  /** A status answer listing one imported service reports a count of 1 and exits with 0. */
  lemma ImportReportsCount(args: Args, target: JsValue, parse: JsonParse, endpoint: string,
                           statusUrl: string, polls: seq<Reply>, service: string)
    requires ValidateArgs(args, parse).None?
    requires !Blank(statusUrl)
    requires |polls| >= MaxRetries
    requires polls[0] == Answered(Obj(map["status" := Str("closed"), "outputs" := Obj(map["services" := Arr([Str(service)])])]))
    ensures var run := Import(args, target, parse, endpoint, Posted(200, Obj(map["status_url" := Str(statusUrl)])), polls);
      run.end == Ok(Num(1)) && ExitCode(run) == 0 && run.calls == 1
  {
    var outputs := Obj(map["services" := Arr([Str(service)])]);
    assert StatusStep(polls[0]) == Terminal(outputs);
    CheckStatusFirstTerminal(polls, 0, outputs);
  }
}

=== FILE: outcomes.dfy ===
/** Failure-carrying values shared by the rest of the model. */
module Outcomes {

  /** An optional value: `None` where JavaScript would have nothing to give. */
  datatype Option<+T> = None | Some(value: T)

  /** Either a normal value or what was thrown instead of it. */
  datatype Result<+T, +E> = Ok(value: T) | Err(error: E)
}

=== FILE: poller.dfy ===
/**
 * The status-polling loop both scripts share (`checkStatus`): at most
 * `MaxRetries` GETs, a pause of `k` seconds after the k-th pending answer,
 * and an empty array when every answer was pending. How a reply is read
 * (which field is returned, what throws) is left to each script; here a
 * reply has already been turned into a `Step`.
 */
module Poller {
  import opened Outcomes
  import opened Js
  import opened Http

  /** `MAX_RETRIES` in the old script, `maxRetries` in the new one. */
  const MaxRetries: nat := 10

  /** The pause after the k-th pending answer is `k * BackoffUnitMs`. */
  const BackoffUnitMs: nat := 1000

  /** How one reply steers the loop. */
  datatype Step = Terminal(outputs: JsValue) | Pending | Fault(error: JsValue)

  /** The loop either returns a value or lets an exception escape. */
  datatype Ending = Returned(value: JsValue) | Raised(error: JsValue)

  /** A finished poll: how it ended, how many GETs it made, how long it slept. */
  datatype Run = Run(ending: Ending, calls: nat, waitedMs: nat)

  /** What a script's `checkStatus` settles with, and the GETs and sleep it took. */
  datatype StatusCheck<+E> = StatusCheck(result: Result<JsValue, E>, calls: nat, waitedMs: nat)

  /** `status === 'completed' || status === 'closed'`: exact, case-sensitive. */
  predicate IsTerminalStatus(status: JsValue) {
    status == Str("completed") || status == Str("closed")
  }

  /** Total sleep after `k` pending answers: `1000 + 2000 + … + k * 1000` ms. */
  function Backoff(k: nat): nat {
    if k == 0 then 0 else Backoff(k - 1) + k * BackoffUnitMs
  }

  /** The linear backoff sums to `1000 · k(k+1)/2` ms. */
  lemma {:induction false} BackoffClosedForm(k: nat)
    ensures 2 * Backoff(k) == BackoffUnitMs * k * (k + 1)
  {
    if k > 0 {
      BackoffClosedForm(k - 1);
    }
  }

  /**
   * The loop from the point where `retries` pending answers have been seen
   * and `waitedMs` slept. `steps[i]` is what the (i+1)-th GET yields.
   */
  function PollFrom(steps: seq<Step>, retries: nat, waitedMs: nat): (run: Run)
    requires retries <= MaxRetries <= |steps|
    ensures retries <= run.calls <= MaxRetries
    ensures waitedMs <= run.waitedMs
    ensures forall j :: retries <= j < run.calls - 1 ==> steps[j].Pending?
    ensures run.ending.Raised? ==> run.calls > retries && steps[run.calls - 1] == Fault(run.ending.error)
    decreases MaxRetries - retries
  {
    if retries == MaxRetries then Run(Returned(Arr([])), retries, waitedMs)
    else match steps[retries]
      case Terminal(outputs) => Run(Returned(outputs), retries + 1, waitedMs)
      case Fault(error) => Run(Raised(error), retries + 1, waitedMs)
      case Pending => PollFrom(steps, retries + 1, waitedMs + (retries + 1) * BackoffUnitMs)
  }

  /** `checkStatus` from its first GET. */
  function Poll(steps: seq<Step>): (run: Run)
    requires |steps| >= MaxRetries
    ensures 1 <= run.calls <= MaxRetries
    ensures forall j :: 0 <= j < run.calls - 1 ==> steps[j].Pending?
    ensures run.ending.Raised? ==> steps[run.calls - 1] == Fault(run.ending.error)
  {
    PollFrom(steps, 0, 0)
  }

  /** How many of the first `MaxRetries` steps are pending before the first that is not. */
  function FirstStop(steps: seq<Step>): (k: nat)
    requires |steps| >= MaxRetries
    ensures k <= MaxRetries
    ensures forall j :: 0 <= j < k ==> steps[j].Pending?
    ensures k < MaxRetries ==> !steps[k].Pending?
  {
    FirstStopFrom(steps, 0)
  }

  function FirstStopFrom(steps: seq<Step>, i: nat): (k: nat)
    requires i <= MaxRetries <= |steps|
    ensures i <= k <= MaxRetries
    ensures forall j :: i <= j < k ==> steps[j].Pending?
    ensures k < MaxRetries ==> !steps[k].Pending?
    decreases MaxRetries - i
  {
    if i == MaxRetries || !steps[i].Pending? then i else FirstStopFrom(steps, i + 1)
  }

  /** The way a non-pending step ends the loop. */
  function EndingOf(step: Step): (e: Ending)
    requires !step.Pending?
  {
    if step.Terminal? then Returned(step.outputs) else Raised(step.error)
  }

  /** A pending answer hands over to the next GET with one more pause slept. */
  lemma PollPending(steps: seq<Step>, i: nat)
    requires i < MaxRetries <= |steps| && steps[i].Pending?
    ensures PollFrom(steps, i, Backoff(i)) == PollFrom(steps, i + 1, Backoff(i + 1))
  {
    assert Backoff(i + 1) == Backoff(i) + (i + 1) * BackoffUnitMs;
  }

  /** From any point before the first stop, the rest of the loop is the closed form. */
  lemma {:induction false} PollFromStop(steps: seq<Step>, i: nat)
    requires i <= MaxRetries <= |steps|
    requires forall j :: 0 <= j < i ==> steps[j].Pending?
    ensures var k := FirstStop(steps);
      PollFrom(steps, i, Backoff(i)) ==
        if k < MaxRetries then Run(EndingOf(steps[k]), k + 1, Backoff(k))
        else Run(Returned(Arr([])), MaxRetries, Backoff(MaxRetries))
    decreases MaxRetries - i
  {
    var k := FirstStop(steps);
    if i == MaxRetries {
      assert k == MaxRetries;
    } else if !steps[i].Pending? {
      assert k == i;
    } else {
      PollPending(steps, i);
      PollFromStop(steps, i + 1);
    }
  }

  /**
   * The whole loop in closed form. With `k` the number of pending answers
   * before the first that is not:
   * - if that answer came within the budget, the loop made `k + 1` GETs,
   *   returned its outputs or let its exception escape, and slept
   *   `1000 · k(k+1)/2` ms;
   * - otherwise it made exactly `MaxRetries` GETs, returned `[]` without an
   *   error and slept 55 000 ms.
   */
  lemma PollClosedForm(steps: seq<Step>)
    requires |steps| >= MaxRetries
    ensures var run := Poll(steps); var k := FirstStop(steps);
      && (k < MaxRetries ==>
            && run.calls == k + 1
            && run.ending == EndingOf(steps[k])
            && 2 * run.waitedMs == BackoffUnitMs * k * (k + 1))
      && (k == MaxRetries ==>
            && run.calls == MaxRetries
            && run.ending == Returned(Arr([]))
            && run.waitedMs == 55000)
  {
    PollFromStop(steps, 0);
    BackoffClosedForm(FirstStop(steps));
  }

  /**
   * Answers past the last GET the loop made have no influence: once it stops
   * (on an outputs-bearing answer, an exception or the budget) no further
   * call is made.
   */
  lemma PollIgnoresLaterAnswers(steps: seq<Step>, other: seq<Step>)
    requires |steps| >= MaxRetries && |other| >= MaxRetries
    requires other[..Poll(steps).calls] == steps[..Poll(steps).calls]
    ensures Poll(other) == Poll(steps)
  {
    var c := Poll(steps).calls;
    forall j | 0 <= j < c
      ensures other[j] == steps[j]
    {
      assert other[j] == other[..c][j];
    }
    PollFromStop(steps, 0);
    PollFromStop(other, 0);
    assert FirstStop(other) == FirstStop(steps);
  }

  /** The scripted answers as a script reads them, one step per GET. */
  function Steps(classify: Reply -> Step, replies: seq<Reply>): (steps: seq<Step>)
    ensures |steps| == |replies|
    ensures forall i :: 0 <= i < |replies| ==> steps[i] == classify(replies[i])
  {
    seq(|replies|, i requires 0 <= i < |replies| => classify(replies[i]))
  }

  /**
   * `checkStatus` of either script: `replies[i]` is the answer to the
   * (i+1)-th GET, `classify` is how the script reads an answer, and an
   * exception ends the loop at once and is re-thrown through `handle`.
   */
  function Check<E>(classify: Reply -> Step, handle: JsValue -> E, replies: seq<Reply>): (c: StatusCheck<E>)
    requires |replies| >= MaxRetries
    ensures 1 <= c.calls <= MaxRetries
    ensures forall j :: 0 <= j < c.calls - 1 ==> classify(replies[j]).Pending?
    ensures c.result.Err? ==>
              && classify(replies[c.calls - 1]).Fault?
              && c.result.error == handle(classify(replies[c.calls - 1]).error)
  {
    var run := Poll(Steps(classify, replies));
    var result := match run.ending
      case Returned(v) => Ok(v)
      case Raised(e) => Err(handle(e));
    StatusCheck(result, run.calls, run.waitedMs)
  }
}

=== FILE: script.dfy ===
/**
 * The decision logic of the trimmed export script: the missing-field guard
 * of `exp`, the submit wrapper, and the status check that returns
 * `outputs.files`.
 */
module Script {
  import opened Outcomes
  import opened Js
  import opened ErrorCodes
  import opened Services
  import opened Http
  import opened Poller
  import opened Errors

  /** The `source_system` of the export body. */
  const CicdHandler: string := "GitHub Actions"

  /** The `source` of the BAD_REQUEST error: every field the guard checks. */
  const RequiredFields: string := "tenant,token,env,services"

  /** The export body `exp` builds (and only logs: the submit is disabled). */
  datatype ExportData = ExportData(services: seq<string>, sourceSystem: string)

  /**
   * How `exp` resolves: with `undefined` after logging the body it built,
   * or with the `toJson()` of the error it caught.
   */
  datatype ExpResult = Logged(data: ExportData) | Refused(json: ErrorJson)

  /** The error the missing-field guard throws. */
  function MissingFieldError(): (e: ScriptError)
    ensures e.kind == BadRequest && HasMessage(e)
  {
    var e := New("required field is missing", Some(BadRequest), Str(RequiredFields));
    assert !IsWhitespace(e.message[0]);
    e
  }

  /**
   * `exp(env, tenant, token, services)`. Any falsy argument is refused with
   * the JSON form of a BAD_REQUEST error naming all four fields; otherwise
   * the body carries the sanitised services.
   */
  function Exp(env: JsValue, tenant: JsValue, token: JsValue, services: JsValue, parse: JsonParse): (r: ExpResult)
    ensures r.Refused? <==> !Truthy(token) || !Truthy(env) || !Truthy(services) || !Truthy(tenant)
    ensures r.Refused? ==>
              && r.json.code == "BAD_REQUEST"
              && r.json.origin == Str(RequiredFields)
              && FromJson(r.json) == Some(MissingFieldError())
    ensures r.Logged? ==> r.data == ExportData(Sanitize(services, parse), CicdHandler)
  {
    if !Truthy(token) || !Truthy(env) || !Truthy(services) || !Truthy(tenant) then
      Refused(ToJson(MissingFieldError()))
    else
      Logged(ExportData(Sanitize(services, parse), CicdHandler))
  }

  /** The summary every refused call carries in `details`, whichever field was missing. */
  lemma RefusalDetails(env: JsValue, tenant: JsValue, token: JsValue, services: JsValue, parse: JsonParse)
    requires !Truthy(token) || !Truthy(env) || !Truthy(services) || !Truthy(tenant)
    ensures Exp(env, tenant, token, services, parse).Refused?
    ensures Exp(env, tenant, token, services, parse).json.details
              == "BAD_REQUEST" + (" (" + RequiredFields + ")") + (": " + "required field is missing")
  {
    var e := MissingFieldError();
    assert Render(e.source) == RequiredFields;
    assert Tail(e.message) == ": " + "required field is missing";
  }

  /**
   * The guard only tests truthiness: a blank service string passes it and
   * the body is built with an empty service list.
   */
  lemma BlankServicesPassGuard(env: JsValue, tenant: JsValue, token: JsValue, s: string, parse: JsonParse)
    requires Truthy(env) && Truthy(tenant) && Truthy(token)
    requires s != [] && Blank(s)
    ensures Exp(env, tenant, token, Str(s), parse) == Logged(ExportData([], CicdHandler))
  {
    assert !Bracketed(s);
    SanitizeString(s, parse);
  }

  /**
   * `tryExecuteApiService`: the `status_url` of the response body, whatever
   * the HTTP status; a thrown request, or a body without properties, is
   * re-thrown through `handle`.
   */
  function TryExecuteApiService(reply: PostReply): (r: Result<JsValue, ScriptError>)
    ensures r.Ok? <==> reply.Posted? && !Nullish(reply.data)
    ensures reply.Posted? && reply.data.Obj? ==>
              r == Ok(if "status_url" in reply.data.fields then reply.data.fields["status_url"] else Undefined)
    ensures r.Err? ==> r.error.message == "failed to execute Export API"
    ensures reply.PostFailed? ==> (r.error.kind == AxiosError <==> reply.error.Error? && reply.error.origin.Axios?)
    ensures reply.PostFailed? ==> r == Err(Handle(reply.error, "failed to execute Export API"))
    ensures reply.Posted? && Nullish(reply.data) ==> r == Err(Handle(TypeErrorValue, "failed to execute Export API"))
  {
    match reply
    case PostFailed(error) => Err(Handle(error, "failed to execute Export API"))
    case Posted(_, data) =>
      match Get(data, "status_url")
      case Ok(url) => Ok(url)
      case Err(thrown) => Err(Handle(thrown, "failed to execute Export API"))
  }

  /**
   * The HTTP status plays no part: the same body gives the same outcome
   * under any two statuses, and a body holding `status_url` yields it.
   */
  lemma SubmitIgnoresHttpStatus(status: int, status': int, data: JsValue, url: JsValue)
    ensures TryExecuteApiService(Posted(status, data)) == TryExecuteApiService(Posted(status', data))
    ensures TryExecuteApiService(Posted(status, Obj(map["status_url" := url]))) == Ok(url)
  {
  }

  /**
   * A failed submit never yields a URL, and its error is SERVICE_UNAVAILABLE
   * carrying the original failure unless that failure came from Axios.
   */
  lemma SubmitFailureKeepsCause(error: JsValue)
    requires !(error.Error? && error.origin.Axios?)
    ensures var r := TryExecuteApiService(PostFailed(error));
      r.Err? && r.error.kind == ServiceUnavailable && r.error.source == error
      && ToJson(r.error).origin == error && ToJson(r.error).code == "SERVICE_UNAVAILABLE"
  {
    var thrown := Handle(error, "failed to execute Export API");
    assert TryExecuteApiService(PostFailed(error)) == Err(thrown);
    assert ToJson(thrown).origin == thrown.source;
  }

  /**
   * How one GET of the new `checkStatus` steers the loop. A terminal answer
   * yields `outputs.files`, which throws when `outputs` is missing.
   */
  function StatusStep(reply: Reply): (step: Step)
    ensures reply.Threw? ==> step == Fault(reply.error)
    ensures reply.Answered? && Nullish(reply.data) ==> step == Fault(TypeErrorValue)
    ensures reply.Answered? && !Nullish(reply.data) ==>
              (step.Pending? <==> !IsTerminalStatus(Get(reply.data, "status").value))
    ensures reply.Answered? && reply.data.Obj? ==>
              var fields := reply.data.fields;
              && (step.Pending? <==> !("status" in fields && IsTerminalStatus(fields["status"])))
              && (!step.Pending? ==>
                    var outputs := if "outputs" in fields then fields["outputs"] else Undefined;
                    step == if Nullish(outputs) then Fault(TypeErrorValue) else Terminal(Get(outputs, "files").value))
  {
    match reply
    case Threw(error) => Fault(error)
    case Answered(data) =>
      match Get(data, "status")
      case Err(thrown) => Fault(thrown)
      case Ok(status) =>
        if IsTerminalStatus(status) then
          match Get(Get(data, "outputs").value, "files")
          case Ok(files) => Terminal(files)
          case Err(thrown) => Fault(thrown)
        else Pending
  }

  /**
   * The new `checkStatus`: the shared loop, reading each answer with this
   * script's `StatusStep` and re-throwing through this script's `handle`.
   */
  function CheckStatus(replies: seq<Reply>): (c: StatusCheck<ScriptError>)
    requires |replies| >= MaxRetries
    ensures 1 <= c.calls <= MaxRetries
    ensures forall j :: 0 <= j < c.calls - 1 ==> StatusStep(replies[j]).Pending?
    ensures c.result.Err? ==>
              && StatusStep(replies[c.calls - 1]).Fault?
              && c.result.error == Handle(StatusStep(replies[c.calls - 1]).error, "failed to check Export status")
  {
    Check(StatusStep, e => Handle(e, "failed to check Export status"), replies)
  }

  /**
   * Pending for `n` answers and then a terminal one with `outputs.files`:
   * those files, after `n + 1` GETs and `1000 · n(n+1)/2` ms of sleep.
   */
  lemma CheckStatusReturnsFiles(replies: seq<Reply>, n: nat, fields: map<string, JsValue>)
    requires |replies| >= MaxRetries && n < MaxRetries
    requires forall j :: 0 <= j < n ==> StatusStep(replies[j]).Pending?
    requires replies[n] == Answered(Obj(fields))
    requires "status" in fields && IsTerminalStatus(fields["status"])
    requires "outputs" in fields && !Nullish(fields["outputs"])
    ensures var c := CheckStatus(replies);
      && c.result == Ok(Get(fields["outputs"], "files").value)
      && c.calls == n + 1 && 2 * c.waitedMs == BackoffUnitMs * n * (n + 1)
  {
    assert StatusStep(replies[n]) == Terminal(Get(fields["outputs"], "files").value);
    PollClosedForm(Steps(StatusStep, replies));
    assert FirstStop(Steps(StatusStep, replies)) == n;
  }

  /**
   * A terminal answer without `outputs` is not a result: reading
   * `outputs.files` throws, and the loop ends with SERVICE_UNAVAILABLE.
   */
  lemma TerminalWithoutOutputsFails(replies: seq<Reply>, n: nat, fields: map<string, JsValue>)
    requires |replies| >= MaxRetries && n < MaxRetries
    requires forall j :: 0 <= j < n ==> StatusStep(replies[j]).Pending?
    requires replies[n] == Answered(Obj(fields))
    requires "status" in fields && IsTerminalStatus(fields["status"])
    requires "outputs" !in fields || Nullish(fields["outputs"])
    ensures var c := CheckStatus(replies);
      && c.calls == n + 1 && c.result.Err? && c.result.error.kind == ServiceUnavailable
      && c.result.error == Handle(TypeErrorValue, "failed to check Export status")
  {
    assert StatusStep(replies[n]) == Fault(TypeErrorValue);
    PollClosedForm(Steps(StatusStep, replies));
    assert FirstStop(Steps(StatusStep, replies)) == n;
  }

  /** All ten answers pending: `[]` and no error, after ten GETs and 55 s of sleep. */
  lemma CheckStatusExhausted(replies: seq<Reply>)
    requires |replies| >= MaxRetries
    requires forall j :: 0 <= j < MaxRetries ==> StatusStep(replies[j]).Pending?
    ensures CheckStatus(replies) == StatusCheck(Ok(Arr([])), MaxRetries, 55000)
  {
    PollClosedForm(Steps(StatusStep, replies));
  }

  /** A transport failure on the first GET: AXIOS_ERROR at once, no second GET. */
  lemma TransportFailureStopsAtOnce(replies: seq<Reply>, message: string)
    requires |replies| >= MaxRetries
    requires replies[0] == Threw(Error(message, Axios))
    ensures var c := CheckStatus(replies);
      c.calls == 1 && c.result.Err? && c.result.error.kind == AxiosError
  {
  }
}

=== FILE: services.dfy ===
/**
 * `sanitizeServices`, identical in both scripts, and the comma-joined
 * service lists the import metadata is built from.
 */
module Services {
  import opened Outcomes
  import opened Js
  import opened Lists

  /** `JSON.parse` as an opaque partial function: `None` where it throws. */
  type JsonParse = string -> Option<JsValue>

  /** A service reference as the sanitiser hands it on: non-empty and trimmed. */
  predicate IsServiceRef(s: string) {
    s != [] && Trim(s) == s
  }

  predicate AllServiceRefs(xs: seq<string>) {
    forall i :: 0 <= i < |xs| ==> IsServiceRef(xs[i])
  }

  /** The `map` callback: a string element's trim, `''` for anything else. */
  function Normalise(v: JsValue): (x: string)
    ensures x == [] || IsServiceRef(x)
  {
    if v.Str? then
      TrimIdempotent(v.s);
      Trim(v.s)
    else ""
  }

  /** `items.map(Normalise).filter((s) => s.length > 0)`, one element at a time. */
  function Clean(items: seq<JsValue>): (r: seq<string>)
    ensures |r| <= |items|
  {
    FlatMapAtMostOne(Kept, items);
    FlatMap(Kept, items)
  }

  /** What one element contributes after `map` and `filter`. */
  function Kept(v: JsValue): (r: seq<string>)
    ensures |r| <= 1
  {
    var x := Normalise(v);
    if x == [] then [] else [x]
  }

  /** `startsWith('[') && endsWith(']')`. */
  predicate Bracketed(s: string) {
    |s| > 0 && s[0] == '[' && s[|s| - 1] == ']'
  }

  /**
   * The value `.map` is finally called on: a bracketed string goes through
   * `JSON.parse` (`None` when that throws), any other string is wrapped in a
   * one-element array, and every other value is used as it is.
   */
  function Listed(services: JsValue, parse: JsonParse): Option<JsValue> {
    if services.Str? then
      if Bracketed(services.s) then parse(services.s) else Some(Arr([services]))
    else Some(services)
  }

  /**
   * `sanitizeServices(services)`. It never throws: a throwing `JSON.parse`
   * and a value without a `map` method (anything but an array) both land in
   * the `catch`, which returns `[]`.
   */
  function Sanitize(services: JsValue, parse: JsonParse): (r: seq<string>)
    ensures !Truthy(services) ==> r == []
    ensures services.Arr? ==> r == Clean(services.items)
    ensures services.Str? && Bracketed(services.s) && parse(services.s).Some? && parse(services.s).value.Arr? ==>
              r == Clean(parse(services.s).value.items)
  {
    if !Truthy(services) then []
    else match Listed(services, parse)
      case Some(Arr(items)) => Clean(items)
      case _ => []
  }

  /** Everything the sanitiser hands on is a non-empty, trimmed reference. */
  lemma SanitizeYieldsServiceRefs(services: JsValue, parse: JsonParse)
    ensures AllServiceRefs(Sanitize(services, parse))
  {
    if Truthy(services) {
      match Listed(services, parse)
      case Some(Arr(items)) => CleanYieldsServiceRefs(items);
      case _ =>
    }
  }

  /** The string values of a list of service references. */
  function Strs(xs: seq<string>): (vs: seq<JsValue>)
    ensures |vs| == |xs|
    ensures forall i :: 0 <= i < |xs| ==> vs[i] == Str(xs[i])
  {
    seq(|xs|, i requires 0 <= i < |xs| => Str(xs[i]))
  }

  /** Cleaning distributes over concatenation: relative order is kept. */
  lemma CleanAppend(a: seq<JsValue>, b: seq<JsValue>)
    ensures Clean(a + b) == Clean(a) + Clean(b)
  {
    FlatMapAppend(Kept, a, b);
  }

  /** A non-string element is dropped without disturbing its neighbours. */
  lemma DropsNonString(a: seq<JsValue>, v: JsValue, b: seq<JsValue>)
    requires !v.Str?
    ensures Clean(a + [v] + b) == Clean(a) + Clean(b)
  {
    FlatMapSingle(Kept, v);
    CleanAppend(a + [v], b);
    CleanAppend(a, [v]);
    assert Clean(a) + [] == Clean(a);
  }

  /**
   * Exactly the non-blank string elements survive, trimmed: `x` is in the
   * result if and only if some string element of `items` trims to `x != ''`.
   */
  lemma CleanMembers(items: seq<JsValue>, x: string)
    ensures x in Clean(items) <==>
            exists i :: 0 <= i < |items| && items[i].Str? && x != [] && Trim(items[i].s) == x
  {
    FlatMapMembers(Kept, items, x);
    forall i | 0 <= i < |items|
      ensures x in Kept(items[i]) <==> items[i].Str? && x != [] && Trim(items[i].s) == x
    {
      KeptMembers(items[i], x);
    }
  }

  /** An element contributes `x` exactly when it is a string that trims to `x != ''`. */
  lemma KeptMembers(v: JsValue, x: string)
    ensures x in Kept(v) <==> v.Str? && x != [] && Trim(v.s) == x
  {
  }

  /** Whatever the elements, every string that survives cleaning is a service reference. */
  lemma CleanYieldsServiceRefs(items: seq<JsValue>)
    ensures AllServiceRefs(Clean(items))
  {
    forall i | 0 <= i < |Clean(items)|
      ensures IsServiceRef(Clean(items)[i])
    {
      var x := Clean(items)[i];
      FlatMapMembers(Kept, items, x);
      var j :| 0 <= j < |items| && x in Kept(items[j]);
      assert x == Normalise(items[j]) && x != [];
    }
  }

  /** A list of service references comes back from cleaning unchanged. */
  lemma {:induction false} CleanKeepsServiceRefs(xs: seq<string>)
    requires AllServiceRefs(xs)
    ensures Clean(Strs(xs)) == xs
    decreases |xs|
  {
    if xs != [] {
      assert Strs(xs)[1..] == Strs(xs[1..]);
      CleanKeepsServiceRefs(xs[1..]);
    }
  }

  /** Sanitising an already-sanitised list returns it unchanged. */
  lemma SanitizeIdempotent(services: JsValue, parse: JsonParse, parse': JsonParse)
    ensures Sanitize(Arr(Strs(Sanitize(services, parse))), parse') == Sanitize(services, parse)
  {
    SanitizeYieldsServiceRefs(services, parse);
    CleanKeepsServiceRefs(Sanitize(services, parse));
  }

  /** An unbracketed string gives at most one reference: its trim. */
  lemma SanitizeString(s: string, parse: JsonParse)
    requires !Bracketed(s)
    ensures Sanitize(Str(s), parse) == (if Blank(s) then [] else [Trim(s)])
  {
    if s != [] {
      FlatMapSingle(Kept, Str(s));
    }
  }

  /**
   * A bracketed string that does not parse to an array, and every truthy
   * value other than a string or an array, give `[]`, never a one-element
   * list of the raw input.
   */
  lemma SanitizeRejectsNonLists(services: JsValue, parse: JsonParse)
    requires Truthy(services)
    requires services.Str? ==> Bracketed(services.s) && (parse(services.s).None? || !parse(services.s).value.Arr?)
    requires !services.Arr?
    ensures Sanitize(services, parse) == []
  {
  }

  /** `xs.join(',')`. */
  function Join(xs: seq<string>): (r: string)
    ensures xs == [] ==> r == []
    ensures |xs| > 0 && xs[0] != [] ==> r != []
  {
    if xs == [] then []
    else if |xs| == 1 then xs[0]
    else xs[0] + "," + Join(xs[1..])
  }

  /** `s.split(',')`. */
  function Split(s: string): (r: seq<string>)
    ensures |r| >= 1
  {
    if s == [] then [[]]
    else if s[0] == ',' then [[]] + Split(s[1..])
    else
      var rest := Split(s[1..]);
      [[s[0]] + rest[0]] + rest[1..]
  }

  predicate CommaFree(s: string) {
    forall i :: 0 <= i < |s| ==> s[i] != ','
  }

  /** A comma-free piece followed by a comma splits off as one field. */
  lemma {:induction false} SplitHead(a: string, b: string)
    requires CommaFree(a)
    ensures Split(a + "," + b) == [a] + Split(b)
    ensures Split(a) == [a]
    decreases |a|
  {
    if a != [] {
      assert (a + "," + b)[1..] == a[1..] + "," + b;
      SplitHead(a[1..], b);
      assert [a[0]] + a[1..] == a;
    } else {
      assert a + "," + b == [','] + b;
    }
  }

  /**
   * Joining a non-empty list of comma-free strings and splitting at the
   * commas gives the list back.
   */
  lemma {:induction false} SplitJoin(xs: seq<string>)
    requires xs != []
    requires forall i :: 0 <= i < |xs| ==> CommaFree(xs[i])
    ensures Split(Join(xs)) == xs
    decreases |xs|
  {
    SplitHead(xs[0], []);
    if |xs| > 1 {
      SplitHead(xs[0], Join(xs[1..]));
      SplitJoin(xs[1..]);
    }
  }
}

=== FILE: submits.dfy ===
// The submit call of the two scripts, side by side: the old
// `executeApiService` followed by `response && response['status_url']`,
// and the new `tryExecuteApiService`. Each is the other's reference.

module Submits {
  import opened Outcomes
  import opened Js
  import opened Http
  import OldScript
  import Script

  /**
   * For every reply: on a 200 answer with a truthy body both scripts reach
   * the same status URL; on any other status only the old script fails,
   * and the new one fails only for a nullish body; a failed POST fails in
   * both, with the same kind and the same underlying value.
   */
  lemma SubmitsCompared(endpoint: string, reply: PostReply)
    ensures var was, now := OldScript.ExecuteApiService(endpoint, reply), Script.TryExecuteApiService(reply);
      reply.Posted? && reply.status == 200 && Truthy(reply.data) ==>
        was.Ok? && now == Ok(OldScript.StatusUrlOf(was.value))
    ensures var was, now := OldScript.ExecuteApiService(endpoint, reply), Script.TryExecuteApiService(reply);
      reply.Posted? && reply.status != 200 ==>
        was.Err? && (now.Ok? <==> !Nullish(reply.data))
    ensures var was, now := OldScript.ExecuteApiService(endpoint, reply), Script.TryExecuteApiService(reply);
      reply.PostFailed? ==>
        was.Err? && now.Err? && was.error.kind == now.error.kind && was.error.cause == now.error.source
  {
  }
}
